=== FILE: README.md ===
# ReleaseBot release validation, in Dafny

ReleaseBot walks the Jira tickets waiting for release approval. For each one
it writes a Slack message saying what is wrong with it. It also keeps a pass
flag (`$squeekyClean`), and when that flag survives every check the message
ends with a check mark. This project models the per-ticket rule engine and
GitHub's pagination merge as pure functions over decoded records, and proves
what they promise.

The rule engine is the body of the loop at ReleaseBot.php lines 33-232. The
pagination merge is inside `CurlGitHub`, lines 319-338.

Modules:

- `Php`: the PHP built-ins the bot relies on. These are:
  - `substr` from offset 0, `trim`/`ltrim`/`rtrim`;
  - `explode`/`implode` on one character;
  - `str_replace`/`str_ireplace` of one needle, `strstr` as a test;
  - `end`, `array_diff`.
- `Hashes`: the 40-character `[a-z0-9]` runs that `preg_match_all` finds in the
  ticket's commit field, cut to 7-character display hashes.
- `ApiUrl`: how a pull-request web address becomes a GitHub API path.
- `Pagination`: following `rel="next"` links in the `Link:` header and
  concatenating the pages.
- `Release`: the decoded records and the diagnostic lines, tagged by kind.
  `Render` gives the exact text each line adds to the message.
- `Validator`: the checks.
  - Each check is a `Section`: the lines it writes plus whether it left the flag standing.
  - `Validate` gives the verdict for one ticket, and `ValidateAll` for the whole run.
  - `$prHash` is never reset, neither between pull requests nor between tickets. It is threaded through explicitly.
- `Properties`: the promises, stated about `Validate` and `ValidateAll`.

The header comment of ReleaseBot.php (lines 2-18) says each pull request is
checked for at least two approvals. The code does something else, and the
model follows the code:

- A failed or empty review fetch writes nothing and passes; only exactly one review fails.
- Two or more reviews pass, whatever states they carry.

Other behaviour of the code that a reader might not expect, kept in the model:

- A sibling issue outside Releasable/Resolved/Closed is reported, but it does not clear the flag.
- Blockers, review states other than APPROVED, and open sub-tasks are reported but never clear the flag.
- The URL rewrite keeps every segment after the pull-request number rather than dropping it. `.../pull/5/files` becomes `.../pulls/5files/`.
- "not in the hash list" is written only while `$prHash` has never been set, in this ticket or an earlier one. It does not clear the flag.
- A `Link:` header line that holds no "," is never followed, even when it names a next page.

## Model

| member | source | states |
|---|---|---|
| Php.Prefix | ReleaseBot.php:67 | `substr($s, 0, $n)` is a prefix of the string, `n` characters long or the whole string when shorter |
| Php.TrimInfix | ReleaseBot.php:151 | the trimmed text is a contiguous piece of the input, and only trim characters are cut away before and after it |
| Php.Trim | ReleaseBot.php:151 | the trimmed text is no longer than the input, and it neither starts nor ends with a trim character |
| Php.TrimLeftDropsTrimChars | ReleaseBot.php:151 | what the left trim removes consists only of trim characters, so it keeps the longest such suffix |
| Php.TrimRightDropsTrimChars | ReleaseBot.php:151 | what the right trim removes consists only of trim characters, so it keeps the longest such prefix |
| Php.TrimIdempotent | ReleaseBot.php:151 | trimming an already trimmed summary changes nothing |
| Php.Split | ReleaseBot.php:83 | `explode` yields at least one piece, no piece holds the delimiter, and `implode` of the pieces gives back the input |
| Php.SplitJoin | ReleaseBot.php:83 | `explode` undoes `implode` when no piece holds the delimiter |
| Php.Replace | ReleaseBot.php:83 | a subject without the needle comes back unchanged; replacing a character by text without it removes every occurrence; a replacement no longer than the needle never lengthens the subject |
| Php.ReplaceCharDistributes | ReleaseBot.php:100 | replacing a single character works piece by piece over a concatenation |
| Php.ArrayDiff | ReleaseBot.php:219 | a value is in `array_diff($a, $b)` exactly when it is in `$a` and not in `$b` |
| Php.ArrayDiffCounts | ReleaseBot.php:219 | every surviving value keeps all its duplicates, and every removed value loses them all |
| Php.ArrayDiffIsSubsequence | ReleaseBot.php:219 | `array_diff` keeps the order of its first argument |
| Php.ArrayDiffIdempotent | ReleaseBot.php:219 | a second `array_diff` against the same list removes nothing more |
| Hashes.MatchStarts | ReleaseBot.php:55 | the scan finds the leftmost, non-overlapping 40-character runs and only those |
| Hashes.LeftmostMatchesUnique | ReleaseBot.php:55 | leftmost non-overlapping matching has exactly one outcome |
| Hashes.DisplayHashesAreLeftmostRuns | ReleaseBot.php:55-68 | the display hashes are, in order, the 7-character prefixes of the runs that leftmost non-overlapping matching finds |
| Hashes.Hashes | ReleaseBot.php:55 | every run `preg_match_all` returns is 40 characters long |
| Hashes.DisplayHashShape | ReleaseBot.php:67 | every display hash is exactly seven lower-case letters and digits |
| Hashes.NoDisplayHashIff | ReleaseBot.php:55-57 | there is no display hash exactly when the field holds no 40-character run anywhere |
| ApiUrl.ApiPath | ReleaseBot.php:83-92 | an address with no `pull` segment is fetched as it reads after the host swap, with a "/" appended |
| ApiUrl.RewriteLoop | ReleaseBot.php:84-92 | the index loop, including its `++$i` skip past the number, computes the recursive rewrite of the pieces |
| ApiUrl.BuildApiPath | ReleaseBot.php:83-92 | for every GitHub pull-request address `https://github.com/o/r/pull/n`, with no "/" in its parts, a named repository, and neither owner nor repository being `pull`, the method returns `https://api.github.com/repos/o/r/pulls/n` |
| ApiUrl.RewriteWithoutPull | ReleaseBot.php:90 | segments other than `pull` are re-emitted, each followed by "/" |
| ApiUrl.RewriteAtPull | ReleaseBot.php:86-87 | `pull` and the segment after it become `pulls/<segment>` with no "/", and every later segment is still emitted |
| ApiUrl.ReplacePullUrl | ReleaseBot.php:83 | `str_ireplace` swaps the web host prefix for the API prefix and leaves the path alone |
| ApiUrl.SplitApiUrl | ReleaseBot.php:83 | exploding the API address of a pull request on "/" gives its host and path segments |
| ApiUrl.PullRequestUrlRewrite | ReleaseBot.php:83-92 | `https://github.com/o/r/pull/n` becomes `https://api.github.com/repos/o/r/pulls/n` |
| Pagination.Fetch | ReleaseBot.php:319-338 | a fetch yields a list exactly when the request succeeds within the depth bound, and the page's own entries come first |
| Pagination.SinglePage | ReleaseBot.php:322-338 | without a next link, the result is exactly the one page |
| Pagination.FollowsNextPage | ReleaseBot.php:327-335 | with one next link, the result is this page followed by everything fetched from the next one |
| Pagination.NextUrls | ReleaseBot.php:322-337 | without a Link line, or with a Link line of one part, nothing is followed; otherwise exactly the URLs of the parts that mention `rel="next"` are followed, part by part in the order of the Link line (with NextPartsAppend) |
| Pagination.NextPartsNamed | ReleaseBot.php:327-331 | every URL followed comes from a part that mentions `rel="next"`, and the URL of every such part is followed |
| Pagination.NextPartsAppend | ReleaseBot.php:327-335 | the next URLs of two runs of parts are those of the first run followed by those of the second, so URLs are followed in the order of their parts, with repeats |
| Pagination.NextPartsSingle | ReleaseBot.php:328-331 | a single part contributes its URL exactly when it mentions `rel="next"`, and nothing otherwise |
| Pagination.LinkLineFound | ReleaseBot.php:322 | the Link line is found whole, up to its line break, after header lines that do not mention `Link:` |
| Pagination.LineOf | ReleaseBot.php:322 | what `.*` matches is a prefix of the text with no line break in it, and it stops only at a line break or at the end of the text |
| Pagination.LinkLine | ReleaseBot.php:322 | a found match starts with `Link:` and holds no line break |
| Pagination.LinkLineNoneIff | ReleaseBot.php:322 | a header yields no Link line exactly when `Link:` occurs nowhere in it |
| Pagination.SinglePartLinkIgnored | ReleaseBot.php:325-326 | a Link line with no "," leads nowhere |
| Pagination.NextPartMarked | ReleaseBot.php:328 | a part ending in `rel="next"` is recognised as a next part |
| Pagination.LastPartNotNext | ReleaseBot.php:328 | the `rel="last"` part is not taken for a next part |
| Pagination.NextPartUrl | ReleaseBot.php:329-330 | the URL read from `Link: <u>; rel="next"` is `u` |
| Pagination.GitHubFirstPageHeader | ReleaseBot.php:322-336 | a header with GitHub's `Link: <u>; rel="next", <v>; rel="last"` line makes the bot follow `u` and nothing else |
| Release.TextEmptyIff | ReleaseBot.php:230 | the message text is empty exactly when no line was written |
| Release.Render | ReleaseBot.php:39-231 | every kind of line adds some text to the message |
| Release.RenderOpensWithSpace | ReleaseBot.php:43-231 | every line after the header opens with a space, a tab or a line break, so no line runs into the text before it |
| Validator.BlockerLines | ReleaseBot.php:47-53 | every open "is blocked by" link with an inward issue is named, and nothing else is |
| Validator.HashSection | ReleaseBot.php:57-61 | "Hash Missing." is written exactly when there is no display hash |
| Validator.PullRequestSection | ReleaseBot.php:72-76 | "Pull Request Missing." is written exactly when there is no URL candidate |
| Validator.CleanMessage | ReleaseBot.php:100 | a cached commit message is at most 100 characters long and has no line break |
| Validator.CacheMessages | ReleaseBot.php:97-101 | every listed commit's short hash is cached and earlier entries stay, and a clean cache stays clean |
| Validator.CacheLeavesOthers | ReleaseBot.php:100 | a short hash that no listed commit has keeps its cached message |
| Validator.CacheKeepsLast | ReleaseBot.php:100 | the last commit with a given short hash decides its cached message |
| Validator.DeclaredHead | ReleaseBot.php:97-105 | `$prHash` becomes the last listed commit that the ticket declares, or keeps its previous value when none is declared |
| Validator.HeadSection | ReleaseBot.php:108-115 | with no `$prHash` the pull request is reported as not in the hash list and the flag stays up; the flag falls exactly when `$prHash` is truthy and not the last listed commit, and "last Commit is not" that hash is written exactly then; at most one line is written, and it names the pull request |
| Validator.ReviewStateLines | ReleaseBot.php:125-129 | every review not in state APPROVED is reported with its state, and no other review is |
| Validator.ReviewSection | ReleaseBot.php:119-130 | a failed or empty review fetch writes nothing; the flag falls exactly when there is one review, and the approval warning is written exactly then; every review not APPROVED has its state written, and every state line names this pull request and the state of one of its reviews that is not APPROVED |
| Validator.CheckPullRequest | ReleaseBot.php:77-132 | one pass of the loop over pull requests only appends to the message, and a `$prHash` once set stays set |
| Validator.CheckPullRequests | ReleaseBot.php:77-132 | the whole loop over pull requests only appends to the message, and a `$prHash` once set stays set |
| Validator.CheckPullRequestsConsistent | ReleaseBot.php:77-132 | after the loop over pull requests, the flag agrees with the lines written, only pull-request lines are written, and every collected commit has a clean cached message |
| Validator.FixVersionSection | ReleaseBot.php:135-140 | "FixVersion Missing." is written exactly when the first fix version is absent, "" or "0" |
| Validator.SignOffCountPositive | ReleaseBot.php:145-157 | the sign-off count is positive exactly when some sub-task's trimmed summary is the trimmed sign-off title |
| Validator.OpenSubtaskLines | ReleaseBot.php:146-150 | every sub-task that is not Closed is listed, and no other is |
| Validator.SecuritySection | ReleaseBot.php:145-160 | the flag falls exactly when no sub-task signs off, and "No security tasks found." is written exactly then |
| Validator.NotTerminalLines | ReleaseBot.php:171-177 | every sibling whose status id is outside 14601, 6 and 5 is named, and no other is |
| Validator.SmartCommits | ReleaseBot.php:182-187 | the Jira commit list holds exactly the display ids recorded for some sibling |
| Validator.SiblingSection | ReleaseBot.php:166-177 | the flag falls exactly when the fix version has no other issue, and the warning is written exactly then |
| Validator.DiffSection | ReleaseBot.php:219-226 | the reconciliation clears the flag exactly when `array_diff` of the pull-request commits and the Jira commits is non-empty, and writes its heading exactly then |
| Validator.DiffSectionOk | ReleaseBot.php:219-221 | the reconciliation passes exactly when every pull-request commit is among the Jira commits |
| Validator.Judge | ReleaseBot.php:38-232 | given the display hashes and what the pull-request loop collected: the message opens with the ticket header; the flag holds exactly when no failing line was written; the check mark is written exactly when the flag holds, and then comes last |
| Validator.Validate | ReleaseBot.php:33-232 | the message opens with the ticket header; the flag holds exactly when no failing line was written; the check mark is written exactly when the flag holds, and then comes last; a set `$prHash` stays set |
| Validator.AllLinesOrdered | ReleaseBot.php:38-226 | the checks' lines come check by check: no line precedes a line of an earlier check |
| Validator.JudgeOrdered | ReleaseBot.php:38-232 | the verdict's lines come in the order the checks append them: notices, hashes, pull-request presence, pull requests, fix version, sub-tasks, sibling issues, commit reconciliation, then the check mark |
| Validator.ValidateOrdered | ReleaseBot.php:38-231 | a ticket's message lines come in that same fixed check order |
| Validator.CleanIsAllOk | ReleaseBot.php:38-226 | the flag survives exactly when every check leaves it standing |
| Validator.ValidateAll | ReleaseBot.php:33-41 | there is one verdict per release ticket, in order, and each opens with its own ticket's header |
| Properties.HashMissingIff | ReleaseBot.php:55-61 | "Hash Missing." is in the message exactly when the commit field has no 40-character run |
| Properties.PullRequestMissingIff | ReleaseBot.php:70-76 | "Pull Request Missing." is in the message exactly when there is no URL candidate |
| Properties.FixVersionMissingIff | ReleaseBot.php:135-140 | "FixVersion Missing." is in the message exactly when the first fix version is absent, "" or "0" |
| Properties.NoSecurityTasksIff | ReleaseBot.php:145-160 | "No security tasks found." is in the message exactly when no sub-task signs the release off |
| Properties.NoAssociatedIssuesIff | ReleaseBot.php:166-170 | "No issues associated with the release." is in the message exactly when the fix version has no other issue |
| Properties.HotfixIff | ReleaseBot.php:42-44 | the hotfix mark is in the message exactly when the hotfix field is non-empty |
| Properties.BlockersReported | ReleaseBot.php:47-53 | the message names every open blocker and no other issue as a blocker |
| Properties.OpenSubtasksReported | ReleaseBot.php:146-150 | the message lists every sub-task that is not Closed, and only those |
| Properties.NotTerminalReported | ReleaseBot.php:171-177 | the message names every sibling outside Releasable, Resolved and Closed, and only those |
| Properties.LoopCollectsCommits | ReleaseBot.php:116 | the pull-request loop collects every pull request's short hashes, in order, whatever `$prHash` does |
| Properties.DiffSectionLines | ReleaseBot.php:219-226 | the reconciliation writes a heading exactly when some commit is unknown to Jira, an entry with its cached message for each such commit, and no entry for any other commit |
| Properties.CacheMessagesAppend | ReleaseBot.php:97-101 | caching the commits of two lists in turn is caching their concatenation |
| Properties.LoopCachesMessages | ReleaseBot.php:77-106 | the loop over pull requests caches the messages of all their commits, in order |
| Properties.AllHashesOfCommits | ReleaseBot.php:98-99 | the collected short hashes are those of the collected commits, in order |
| Properties.CachedLast | ReleaseBot.php:98-100 | for each collected short hash, the cache holds the cleaned message of the last commit with that hash |
| Properties.JudgeDiffEntries | ReleaseBot.php:219-226 | the commit entries of the message are the values of `array_diff`, in order and with repeats, each with its cached message |
| Properties.DiffReported | ReleaseBot.php:219-226 | the commits on the pull requests that Jira does not know are reported under a heading; the entries are exactly those commits, in pull-request order and with repeats, each with the cleaned first 100 characters of the message of the last listed commit with that short hash; no other commit gets an entry |
| Properties.PrLoopOk | ReleaseBot.php:77-132 | the loop over pull requests keeps the flag exactly when no candidate has exactly one review and no "last Commit is not" line was written |
| Properties.CleanIff | ReleaseBot.php:38-232 | the ticket passes exactly when all of the following hold: a full hash is declared, a pull request is linked, no pull request has exactly one review, no "last Commit is not" line is written, a fix version is named, a sign-off sub-task exists, the fix version has other issues, and Jira knows every pull-request commit |
| Properties.FlagIgnoresNotices | ReleaseBot.php:42-53 | the flag does not depend on the hotfix field or on issue links |
| Properties.FlagIgnoresStatuses | ReleaseBot.php:145-177 | the flag does not depend on sub-task statuses or on sibling statuses |
| Properties.SingleReviewFails | ReleaseBot.php:119-124 | a pull request with exactly one review is reported and fails the ticket |
| Properties.PullRequestPasses | ReleaseBot.php:96-130 | one pull request keeps the flag exactly when it was up, the pull request does not have exactly one review, and the `$prHash` its commits leave is unset, falsy or its last listed commit; it is reported as not in the hash list exactly when that `$prHash` is unset, as "last Commit is not" exactly when the head check fails, and as under-approved exactly when it has one review; every line names the pull request |
| Properties.LoopApprovals | ReleaseBot.php:119-124 | the approval warning for a pull request is in the loop's lines exactly when it is a candidate with exactly one review, or the warning was already there |
| Properties.HeadSectionNames | ReleaseBot.php:111-112 | the head check names the stale `$prHash` it finds, and no other hash |
| Properties.DeclaredHeadPasses | ReleaseBot.php:97-115 | a pull request whose last commit is declared passes the head check and leaves that commit in `$prHash` |
| Properties.UndeclaredHeadFails | ReleaseBot.php:102-114 | when an earlier commit is declared but the last is not, the pull request fails as "last Commit is not" that commit |
| Properties.UndeclaredPullRequest | ReleaseBot.php:108-114 | when a pull request has no declared commit, `$prHash` is unchanged. It is reported as not in the hash list exactly when there is no earlier hash, and then only its reviews decide the flag. With an earlier hash, "last Commit is not" that hash is written exactly when the hash is truthy and not its last commit, so a pull request ending in the earlier hash passes |
| Properties.ReviewSectionKinds | ReleaseBot.php:119-130 | the review check writes only the approval warning and review states |
| Properties.ReviewSectionStates | ReleaseBot.php:125-129 | the review check writes a state exactly when some review is in that state and the state is not APPROVED |
| Properties.AddedReviewStates | ReleaseBot.php:119-130 | one pass of the loop over pull requests writes only the review states of its own pull request |
| Properties.LoopReviewStates | ReleaseBot.php:77-132 | a review-state line is in the loop's lines exactly when it was already there, or the pull request is a candidate with a review in that state and the state is not APPROVED |
| Properties.ReviewStatesReported | ReleaseBot.php:77-132 | the message reports a review state for a pull request exactly when it is a candidate of the ticket, one of its reviews is in that state, and the state is not APPROVED |
| Properties.DisplayHashesTruthy | ReleaseBot.php:111 | a declared head is never "" or "0", so the head comparison always runs |
| Properties.StickyInTicket | ReleaseBot.php:103-109 | a ticket that starts with `$prHash` set never reports a pull request as not in the hash list |
| Properties.StickyAcrossTickets | ReleaseBot.php:33-115 | after the first ticket that sets `$prHash`, no later ticket reports a pull request as not in the hash list |
| Properties.MessageText | ReleaseBot.php:230-232 | the message is never empty, and a passing ticket's message ends with the check mark |

## Left out

- Network I/O is not modelled: `CurlJira`, the HTTP parts of `CurlGitHub`, the Slack POST (lines 234-261) and the credentials in `conf.php`. The model instead takes the decoded Jira tickets, sibling issues and GitHub answers as inputs (`Ticket`, `Sibling`, `CodeHost`).
- JSON decoding is not modelled. A failed request or an answer that is not an array is a missing key in `CodeHost`, which reads as an empty list.
- The URL pattern at line 70 is not modelled: the candidates it finds are the input `Ticket.prUrls`.
- JQL building and the command-line override (lines 24-29, 163-164) are left out, as are `ini_set` and the commented-out code (lines 189-206, 211-217).
- The sibling commit lookup (lines 179-188) is an input. `Sibling.smartCommits` holds the display ids of the commits under the first detail's first repository only (`detail[0]->repositories[0]`, line 182), and nothing when that path is missing. Commits listed under any other detail or repository are never read by the code, so the model has no field for them.
- The commit and review lists in `CodeHost` are taken as already merged across pages. `Pagination` models that merge on its own.
- Pagination.Fetch: following next pages is bounded by a `fuel` depth. An unbounded chain of next links is not modelled; the source would recurse without end there.
- PHP's loose `==` and `in_array` comparisons are modelled as exact string equality. Numeric-looking strings such as "1e1" and "10", which PHP compares as numbers, are not modelled.
- `substr` counts bytes and the model counts characters, so multi-byte commit messages are not modelled byte for byte.
- Php.Replace: its contract states only the no-occurrence, character-removal and length facts the model needs. It does not state the full left-to-right replacement, which the body defines.
- The hotfix field, issue links, sub-tasks, fix versions and the sibling search result are taken as lists, and a missing one as an empty list. This follows PHP 7's `count` at ReleaseBot.php lines 42, 47, 49, 146 and 167, which gives 0 for a missing field (and 1 for the inward-issue object at line 49). PHP 8 throws a TypeError there instead, ending the run; that is not modelled.
- Hashes.Hashes: its contract states only that each run is 40 characters long. That the runs are exactly those of leftmost non-overlapping `[a-z0-9]{40}` matching is proved of MatchStarts and DisplayHashesAreLeftmostRuns.
- Php.Trim: its contract states only the length bound and that neither end is a trim character. That only trim characters are cut, and only at the two ends, is the separate lemma Php.TrimInfix.

=== FILE: api_url.dfy ===
/** The rewrite of a pull-request web address into the GitHub API path the
    bot fetches commits and reviews from (ReleaseBot.php, lines 83-92):
    `str_ireplace` the web prefix by the API prefix, `explode` on "/", then
    re-emit every segment followed by "/", except that a `pull` segment and
    the segment after it become `pulls/<that segment>` with no "/" after. */
module ApiUrl {
  import opened Php

  const WebPrefix := "https://github.com/"
  const ApiPrefix := "https://api.github.com/repos/"

  /** The `for` loop over the exploded pieces. A `pull` piece consumes the
      next one (`$urlpieces[++$i]`, which is `null`, printed as "", past the
      end). */
  function Rewrite(ps: seq<string>): string
    decreases |ps|
  {
    if |ps| == 0 then ""
    else if ps[0] == "pull" then
      if |ps| == 1 then "pulls/" else "pulls/" + ps[1] + Rewrite(ps[2..])
    else ps[0] + "/" + Rewrite(ps[1..])
  }

  /** `$url` for one pull-request candidate `$pr`. Without a `pull` piece the
      address is fetched as it reads after the prefix swap, with a "/" added. */
  function ApiPath(pr: string): (url: string)
    ensures "pull" !in Split(Replace(pr, WebPrefix, ApiPrefix, true), '/') ==>
      url == Replace(pr, WebPrefix, ApiPrefix, true) + "/"
  {
    var ps := Split(Replace(pr, WebPrefix, ApiPrefix, true), '/');
    assert "pull" !in ps ==> Rewrite(ps) == Join(ps, '/') + "/" by {
      if "pull" !in ps {
        RewriteWithoutPull(ps);
      }
    }
    Rewrite(ps)
  }

  /** The same computation as the source writes it: explode, then the loop.
      A GitHub pull-request address `https://github.com/o/r/pull/n` yields
      the API path `https://api.github.com/repos/o/r/pulls/n`. */
  method BuildApiPath(pr: string) returns (url: string)
    ensures url == ApiPath(pr)
    ensures forall o, r, n :: PullParts(o, r, n) && pr == WebPrefix + PullPath(o, r, n) ==>
              url == ApiPrefix + o + "/" + r + "/pulls/" + n
  {
    var pieces := Split(Replace(pr, WebPrefix, ApiPrefix, true), '/');
    url := RewriteLoop(pieces);
    forall o, r, n | PullParts(o, r, n) && pr == WebPrefix + PullPath(o, r, n)
      ensures url == ApiPrefix + o + "/" + r + "/pulls/" + n
    {
      PullRequestUrlRewrite(o, r, n);
    }
  }

  /** The `for` loop over the pieces, index by index. */
  method RewriteLoop(pieces: seq<string>) returns (url: string)
    ensures url == Rewrite(pieces)
  {
    url := "";
    var i := 0;
    while i < |pieces|
      invariant 0 <= i <= |pieces|
      invariant url + Rewrite(pieces[i..]) == Rewrite(pieces)
      decreases |pieces| - i
    {
      if pieces[i] == "pull" {
        if i + 1 < |pieces| {
          assert pieces[i..][2..] == pieces[i + 2..];
          assert Rewrite(pieces[i..]) == "pulls/" + pieces[i + 1] + Rewrite(pieces[i + 2..]);
          AppendAssoc(url, "pulls/" + pieces[i + 1], Rewrite(pieces[i + 2..]));
          url := url + ("pulls/" + pieces[i + 1]);
          i := i + 2;
        } else {
          assert Rewrite(pieces[i..]) == "pulls/";
          url := url + "pulls/";
          i := i + 1;
        }
      } else {
        assert pieces[i..][1..] == pieces[i + 1..];
        assert Rewrite(pieces[i..]) == pieces[i] + "/" + Rewrite(pieces[i + 1..]);
        AppendAssoc(url, pieces[i] + "/", Rewrite(pieces[i + 1..]));
        url := url + (pieces[i] + "/");
        i := i + 1;
      }
    }
  }

  /** Pieces without a `pull` segment come back joined, with a trailing "/". */
  lemma {:induction false} RewriteWithoutPull(ps: seq<string>)
    requires |ps| > 0
    requires "pull" !in ps
    ensures Rewrite(ps) == Join(ps, '/') + "/"
    decreases |ps|
  {
    if |ps| > 1 {
      assert "pull" !in ps[1..] by {
        assert forall x :: x in ps[1..] ==> x in ps;
      }
      RewriteWithoutPull(ps[1..]);
    }
  }

  /** The segment after `pull` is glued to "pulls/", and every later segment
      is still emitted: nothing after the number is dropped. */
  lemma {:induction false} RewriteAtPull(ps: seq<string>, n: string, qs: seq<string>)
    requires "pull" !in ps
    ensures Rewrite(ps + ["pull", n] + qs) == Rewrite(ps) + "pulls/" + n + Rewrite(qs)
    decreases |ps|
  {
    var all := ps + ["pull", n] + qs;
    if |ps| == 0 {
      assert all == ["pull", n] + qs;
      assert all[2..] == qs;
    } else {
      assert all[1..] == ps[1..] + ["pull", n] + qs;
      assert "pull" !in ps[1..] by {
        assert forall x :: x in ps[1..] ==> x in ps;
      }
      RewriteAtPull(ps[1..], n, qs);
    }
  }

  /** Only "/" lower-cases to "/". */
  lemma LowerSlash(c: char)
    requires Lower(c) == '/'
    ensures c == '/'
  {
  }

  /** Two neighbouring "/" at position `j` of `t`. */
  predicate DoubleSlashAt(t: string, j: int) {
    0 <= j < |t| - 1 && t[j] == '/' && t[j + 1] == '/'
  }

  /** The web prefix, in any letter case, holds "//" after "https:". */
  lemma WebPrefixHasDoubleSlash(t: string, i: int)
    ensures OccursAt(t, i, WebPrefix, true) ==> DoubleSlashAt(t, i + 6)
  {
    if OccursAt(t, i, WebPrefix, true) {
      assert |WebPrefix| == 19 && WebPrefix[6] == '/' && WebPrefix[7] == '/';
      var w := t[i..i + |WebPrefix|];
      assert Lower(w[6]) == Lower(WebPrefix[6]);
      assert Lower(w[7]) == Lower(WebPrefix[7]);
      LowerSlash(w[6]);
      LowerSlash(w[7]);
      assert t[i + 6] == w[6] && t[i + 7] == w[7];
    }
  }

  /** `str_ireplace` finds no web prefix in text without "//". */
  lemma WebPrefixNeedsDoubleSlash(t: string)
    requires forall j :: !DoubleSlashAt(t, j)
    ensures Replace(t, WebPrefix, ApiPrefix, true) == t
  {
    forall i | 0 <= i <= |t| - |WebPrefix|
      ensures !OccursAt(t, i, WebPrefix, true)
    {
      WebPrefixHasDoubleSlash(t, i);
    }
  }

  /** No two neighbouring "/" in `o/r/pull/n` when the repository name is
      non-empty and no part holds a "/". */
  lemma PullPathHasNoDoubleSlash(o: string, r: string, n: string)
    requires '/' !in o && '/' !in r && '/' !in n && |r| > 0
    ensures forall j :: !DoubleSlashAt(o + "/" + r + "/pull/" + n, j)
  {
    var t := o + "/" + r + "/pull/" + n;
    var a := |o| + |r|;
    forall j | 0 <= j < |t| - 1
      ensures !DoubleSlashAt(t, j)
    {
      if j < |o| {
        assert t[j] == o[j];
      } else if j == |o| {
        assert t[j + 1] == r[0];
      } else if j <= a {
        assert t[j] == r[j - |o| - 1];
      } else if j == a + 1 {
        assert t[j + 1] == 'p';
      } else if j < a + 6 {
        assert t[j] == "/pull/"[j - a - 1];
      } else if j == a + 6 {
        assert t[j + 1] == n[0];
      } else {
        assert t[j] == n[j - a - 7];
      }
    }
  }

  /** The leading web prefix is swapped for the API prefix and, in text
      without "//", nothing else changes. */
  lemma ReplaceLeadingWebPrefix(rest: string)
    requires forall j :: !DoubleSlashAt(rest, j)
    ensures Replace(WebPrefix + rest, WebPrefix, ApiPrefix, true) == ApiPrefix + rest
  {
    var web := WebPrefix + rest;
    assert web[..|WebPrefix|] == WebPrefix;
    assert web[|WebPrefix|..] == rest;
    assert SameText(web[..|WebPrefix|], WebPrefix, true);
    WebPrefixNeedsDoubleSlash(rest);
  }

  /** The API address of a pull request, as the pieces `explode` yields. */
  function ApiPieces(o: string, r: string, n: string): seq<string> {
    ["https:", "", "api.github.com", "repos", o, r, "pull", n]
  }

  /** The pieces of the API prefix, before the owner. */
  const ApiPrefixPieces: seq<string> := ["https:", "", "api.github.com", "repos"]

  /** The pieces before `pull`. */
  function ApiHead(o: string, r: string): seq<string> {
    ApiPrefixPieces + [o, r]
  }

  lemma ApiPrefixParts()
    ensures ApiPrefix == "https:" + "/" + "/" + "api.github.com" + "/" + "repos" + "/"
  {
  }

  lemma JoinApiPrefix()
    ensures Join(ApiPrefixPieces, '/') + "/" == ApiPrefix
  {
    var ps := ApiPrefixPieces;
    assert ps[1..][1..][1..] == ["repos"];
    ApiPrefixParts();
  }

  lemma JoinApiHead(o: string, r: string)
    ensures Join(ApiHead(o, r), '/') == ApiPrefix + o + "/" + r
  {
    assert [o, r][1..] == [r];
    JoinApiPrefix();
    JoinAppend(ApiPrefixPieces, [o, r], '/');
  }

  lemma JoinApiPieces(o: string, r: string, n: string)
    ensures Join(ApiPieces(o, r, n), '/') == ApiPrefix + o + "/" + r + "/pull/" + n
  {
    JoinApiHead(o, r);
    JoinAppend(ApiHead(o, r), ["pull", n], '/');
    assert ApiHead(o, r) + ["pull", n] == ApiPieces(o, r, n);
  }

  /** `o/r/pull/n`: the path of a pull request below the host. */
  function PullPath(o: string, r: string, n: string): string {
    o + "/" + r + "/pull/" + n
  }

  /** `str_ireplace` swaps the host part of a pull-request address. */
  lemma ReplacePullUrl(o: string, r: string, n: string)
    requires '/' !in o && '/' !in r && '/' !in n && |r| > 0
    ensures Replace(WebPrefix + PullPath(o, r, n), WebPrefix, ApiPrefix, true) == ApiPrefix + PullPath(o, r, n)
  {
    PullPathHasNoDoubleSlash(o, r, n);
    ReplaceLeadingWebPrefix(PullPath(o, r, n));
  }

  /** `explode` of the API address gives the API pieces. */
  lemma SplitApiUrl(o: string, r: string, n: string)
    requires '/' !in o && '/' !in r && '/' !in n
    ensures Split(ApiPrefix + PullPath(o, r, n), '/') == ApiPieces(o, r, n)
  {
    JoinApiPieces(o, r, n);
    assert ApiPrefix + PullPath(o, r, n) == Join(ApiPieces(o, r, n), '/');
    SplitJoin(ApiPieces(o, r, n), '/');
  }

  /** The loop over the API pieces turns `pull/n` into `pulls/n`. */
  lemma RewriteApiPieces(o: string, r: string, n: string)
    requires o != "pull" && r != "pull"
    ensures Rewrite(ApiPieces(o, r, n)) == ApiPrefix + o + "/" + r + "/pulls/" + n
  {
    var head := ApiHead(o, r);
    assert head + ["pull", n] + [] == ApiPieces(o, r, n);
    RewriteWithoutPull(head);
    RewriteAtPull(head, n, []);
    JoinApiHead(o, r);
  }

  /** Owner, repository and number of a pull-request address: no part holds
      a "/", the repository is named, and neither owner nor repository is
      `pull`. */
  predicate PullParts(o: string, r: string, n: string) {
    '/' !in o && '/' !in r && '/' !in n && |r| > 0 && o != "pull" && r != "pull"
  }

  /** A pull-request web address becomes the API path of that pull request. */
  lemma PullRequestUrlRewrite(o: string, r: string, n: string)
    requires PullParts(o, r, n)
    ensures ApiPath(WebPrefix + PullPath(o, r, n)) == ApiPrefix + o + "/" + r + "/pulls/" + n
  {
    var web := WebPrefix + PullPath(o, r, n);
    var api := ApiPrefix + PullPath(o, r, n);
    assert Replace(web, WebPrefix, ApiPrefix, true) == api by {
      ReplacePullUrl(o, r, n);
    }
    assert Split(api, '/') == ApiPieces(o, r, n) by {
      SplitApiUrl(o, r, n);
    }
    assert Rewrite(ApiPieces(o, r, n)) == ApiPrefix + o + "/" + r + "/pulls/" + n by {
      RewriteApiPieces(o, r, n);
    }
    assert ApiPath(web) == Rewrite(Split(Replace(web, WebPrefix, ApiPrefix, true), '/'));
  }
}

=== FILE: hashes.dfy ===
/** Commit hashes declared in a release ticket's commit field: every run
    that `preg_match_all('([a-z0-9]{40})', …)` finds, scanning left to
    right without overlap, each cut to the 7-character form GitHub shows. */
module Hashes {

  const HashLength: nat := 40
  const DisplayLength: nat := 7

  predicate IsHashChar(c: char) {
    'a' <= c <= 'z' || '0' <= c <= '9'
  }

  /** Forty hash characters start at position `q` of `s`. */
  predicate HashAt(s: string, q: int) {
    0 <= q && q + HashLength <= |s| && forall k :: q <= k < q + HashLength ==> IsHashChar(s[k])
  }

  /** No run of forty hash characters starts in `[lo, hi)`. */
  predicate NoHashIn(s: string, lo: int, hi: int) {
    forall q :: lo <= q < hi ==> !HashAt(s, q)
  }

  /** `ps` are the positions at which leftmost, non-overlapping matching
      from position `i` finds a run: each match is the first run at or after
      the end of the previous one, and no run is left after the last. This
      is the reference meaning, independent of how the scan is written. */
  predicate LeftmostMatches(s: string, i: nat, ps: seq<nat>)
    decreases |ps|
  {
    if |ps| == 0 then NoHashIn(s, i, |s|)
    else
      && i <= ps[0]
      && HashAt(s, ps[0])
      && NoHashIn(s, i, ps[0])
      && LeftmostMatches(s, ps[0] + HashLength, ps[1..])
  }

  /** The regular-expression engine's scan: try a match at `i`; on success
      resume after it, otherwise one character further on. */
  function MatchStarts(s: string, i: nat): (ps: seq<nat>)
    ensures LeftmostMatches(s, i, ps)
    ensures forall k :: 0 <= k < |ps| ==> HashAt(s, ps[k])
    decreases |s| - i
  {
    if i + HashLength > |s| then []
    else if HashAt(s, i) then
      var rest := MatchStarts(s, i + HashLength);
      assert ([i] + rest)[1..] == rest;
      [i] + rest
    else
      MatchStarts(s, i + 1)
  }

  /** There is only one way to match leftmost without overlap. */
  lemma {:induction false} LeftmostMatchesUnique(s: string, i: nat, ps: seq<nat>, qs: seq<nat>)
    requires LeftmostMatches(s, i, ps) && LeftmostMatches(s, i, qs)
    ensures ps == qs
    decreases |ps|
  {
    if |ps| > 0 && |qs| > 0 {
      assert HashAt(s, ps[0]) && HashAt(s, qs[0]);
      assert ps[0] == qs[0];
      LeftmostMatchesUnique(s, ps[0] + HashLength, ps[1..], qs[1..]);
      assert ps == [ps[0]] + ps[1..];
      assert qs == [qs[0]] + qs[1..];
    } else if |ps| > 0 {
      assert false;
    } else if |qs| > 0 {
      assert false;
    }
  }

  /** The full 40-character runs, in order. */
  function Hashes(s: string): (hs: seq<string>)
    ensures forall k :: 0 <= k < |hs| ==> |hs[k]| == HashLength
  {
    var ps := MatchStarts(s, 0);
    seq(|ps|, k requires 0 <= k < |ps| => s[ps[k]..ps[k] + HashLength])
  }

  /** `$displayHashes`: every run cut to its first seven characters. */
  function DisplayHashes(s: string): (ds: seq<string>)
    ensures |ds| == |Hashes(s)|
    ensures forall k :: 0 <= k < |ds| ==> ds[k] == Hashes(s)[k][..DisplayLength]
  {
    var hs := Hashes(s);
    seq(|hs|, k requires 0 <= k < |hs| => hs[k][..DisplayLength])
  }

  /** The display hashes are, in order, the 7-character prefixes of the runs
      that leftmost non-overlapping matching finds. */
  lemma DisplayHashesAreLeftmostRuns(s: string, ps: seq<nat>)
    requires LeftmostMatches(s, 0, ps)
    ensures |DisplayHashes(s)| == |ps|
    ensures forall k :: 0 <= k < |ps| ==> HashAt(s, ps[k]) && DisplayHashes(s)[k] == s[ps[k]..ps[k] + DisplayLength]
  {
    LeftmostMatchesUnique(s, 0, ps, MatchStarts(s, 0));
  }

  /** Every display hash is seven hash characters. */
  lemma DisplayHashShape(s: string)
    ensures forall k :: 0 <= k < |DisplayHashes(s)| ==>
      |DisplayHashes(s)[k]| == DisplayLength &&
      forall j :: 0 <= j < DisplayLength ==> IsHashChar(DisplayHashes(s)[k][j])
  {
    var ps := MatchStarts(s, 0);
    forall k, j | 0 <= k < |ps| && 0 <= j < DisplayLength
      ensures IsHashChar(DisplayHashes(s)[k][j])
    {
      assert HashAt(s, ps[k]);
      assert DisplayHashes(s)[k][j] == s[ps[k] + j];
    }
  }

  /** No display hash at all exactly when the field holds no run of forty
      hash characters anywhere. */
  lemma NoDisplayHashIff(s: string)
    ensures |DisplayHashes(s)| == 0 <==> forall q :: !HashAt(s, q)
  {
    var ps := MatchStarts(s, 0);
    if |ps| > 0 {
      assert HashAt(s, ps[0]);
    }
  }
}

=== FILE: pagination.dfy ===
/** GitHub pagination inside `CurlGitHub` (ReleaseBot.php, lines 319-338):
    find the `Link:` header line, split it on ",", and for every part marked
    `rel="next"` fetch the URL between "<" and ">" and append that page's
    entries after the current page's. The network is a map from URL to
    response; recursion depth is bounded by `fuel`. */
module Pagination {
  import opened Php

  /** One HTTP response of the code host: raw header block and decoded body. */
  datatype Response<T> = Response(header: string, body: seq<T>)

  const LinkTag := "Link:"
  const NextRel := "rel=\"next\""

  /** The rest of the line from the start of `s`; in a PCRE pattern `.`
      matches anything but "\n". */
  function LineOf(s: string): (r: string)
    ensures r <= s && '\n' !in r
    ensures |r| < |s| ==> s[|r|] == '\n'
    decreases |s|
  {
    if |s| == 0 || s[0] == '\n' then "" else [s[0]] + LineOf(s[1..])
  }

  // preg_match of /Link:.*/ on the header: the first "Link:" and the rest of its line.
  function LinkLine(header: string): (r: Option<string>)
    ensures r.Some? ==> |r.value| >= |LinkTag| && r.value[..|LinkTag|] == LinkTag && '\n' !in r.value
    decreases |header|
  {
    if |header| < |LinkTag| then None
    else if header[..|LinkTag|] == LinkTag then Some(LineOf(header))
    else LinkLine(header[1..])
  }

  /** The URL of one comma-separated part: the text before the first ">",
      with every "<" and then every "Link:" removed, trimmed. */
  function PartUrl(part: string): string {
    Trim(Replace(Replace(Split(part, '>')[0], "<", "", false), LinkTag, "", false))
  }

  /** `urls` are the URLs of exactly the parts that mention rel="next". */
  ghost predicate NamesNextParts(urls: seq<string>, parts: seq<string>) {
    && (forall u :: u in urls ==> exists p :: p in parts && Contains(p, NextRel) && u == PartUrl(p))
    && (forall p :: p in parts && Contains(p, NextRel) ==> PartUrl(p) in urls)
  }

  /** The URL of one part when it mentions rel="next" (the `strstr` test). */
  function NextOf(part: string): seq<string> {
    if Contains(part, NextRel) then [PartUrl(part)] else []
  }

  /** The URLs of the parts that mention rel="next", in order. */
  function NextParts(parts: seq<string>): (urls: seq<string>)
    ensures |urls| <= |parts|
    decreases |parts|
  {
    if |parts| == 0 then []
    else NextOf(parts[0]) + NextParts(parts[1..])
  }

  lemma {:induction false} NextPartsNamed(parts: seq<string>)
    ensures NamesNextParts(NextParts(parts), parts)
    decreases |parts|
  {
    if |parts| > 0 {
      NextPartsNamed(parts[1..]);
      var here := NextOf(parts[0]);
      var rest := NextParts(parts[1..]);
      assert NextParts(parts) == here + rest;
      assert forall p :: p in parts <==> p == parts[0] || p in parts[1..];
      assert forall u :: u in here + rest <==> u in here || u in rest;
    }
  }

  /** The next URLs of two runs of parts are those of the first run, then
      those of the second: the followed URLs keep the order of the parts. */
  lemma {:induction false} NextPartsAppend(a: seq<string>, b: seq<string>)
    ensures NextParts(a + b) == NextParts(a) + NextParts(b)
    decreases |a|
  {
    if |a| > 0 {
      var ab := a + b;
      var tail := a[1..];
      assert ab[0] == a[0] && ab[1..] == tail + b;
      NextPartsAppend(tail, b);
      calc {
        NextParts(ab);
        NextOf(a[0]) + NextParts(tail + b);
        NextOf(a[0]) + (NextParts(tail) + NextParts(b));
        (NextOf(a[0]) + NextParts(tail)) + NextParts(b);
        NextParts(a) + NextParts(b);
      }
    } else {
      assert a + b == b;
    }
  }

  /** One part gives its URL when it mentions rel="next", and nothing else. */
  lemma NextPartsSingle(p: string)
    ensures NextParts([p]) == if Contains(p, NextRel) then [PartUrl(p)] else []
  {
    assert [p][1..] == [];
  }

  /** The pages `CurlGitHub` goes on to fetch: the URL of every part of the
      Link line that mentions rel="next". A Link line of one part only is
      not looked at, and without a Link line nothing is followed. */
  function NextUrls(header: string): (urls: seq<string>)
    ensures LinkLine(header).None? ==> urls == []
    ensures LinkLine(header).Some? ==>
      var parts := Split(LinkLine(header).value, ',');
      if |parts| > 1 then NamesNextParts(urls, parts) && urls == NextParts(parts) else urls == []
  {
    match LinkLine(header)
    case None => []
    case Some(line) =>
      var parts := Split(line, ',');
      if |parts| > 1 then NextPartsNamed(parts); NextParts(parts) else []
  }

  /** `CurlGitHub($url)`: `None` when the request fails (the source then
      returns nothing); otherwise this page's entries followed by those of
      every page reached through a rel="next" link. A following page that
      fails contributes nothing. */
  function Fetch<T>(web: map<string, Response<T>>, url: string, fuel: nat): (r: Option<seq<T>>)
    ensures r.Some? <==> fuel > 0 && url in web
    ensures r.Some? ==> web[url].body <= r.value
    decreases fuel, 0
  {
    if fuel == 0 || url !in web then None
    else
      var page := web[url];
      Some(page.body + FetchAll(web, NextUrls(page.header), fuel - 1))
  }

  /** The entries of several pages, in link order. */
  function FetchAll<T>(web: map<string, Response<T>>, urls: seq<string>, fuel: nat): seq<T>
    decreases fuel, 1, |urls|
  {
    if |urls| == 0 then []
    else
      var first := match Fetch(web, urls[0], fuel) case Some(b) => b case None => [];
      first + FetchAll(web, urls[1..], fuel)
  }

  // ---------------------------------------------------------------- properties

  /** Without a next link the result is exactly the one page. */
  lemma SinglePage<T>(web: map<string, Response<T>>, url: string, fuel: nat)
    requires fuel > 0 && url in web
    requires NextUrls(web[url].header) == []
    ensures Fetch(web, url, fuel) == Some(web[url].body)
  {
    assert FetchAll(web, [], fuel - 1) == [];
    assert web[url].body + [] == web[url].body;
  }

  /** With one next link, the merged list is this page followed by the
      merged list from the next page. */
  lemma FollowsNextPage<T>(web: map<string, Response<T>>, url: string, next: string, fuel: nat)
    requires fuel > 1 && url in web && next in web
    requires NextUrls(web[url].header) == [next]
    ensures Fetch(web, url, fuel) == Some(web[url].body + Fetch(web, next, fuel - 1).value)
  {
    assert FetchAll(web, [], fuel - 1) == [];
    assert [next][1..] == [];
    assert FetchAll(web, [next], fuel - 1) == Fetch(web, next, fuel - 1).value + FetchAll(web, [], fuel - 1);
    assert Fetch(web, next, fuel - 1).value + [] == Fetch(web, next, fuel - 1).value;
  }

  /** `.*` stops at the line break. */
  lemma {:induction false} LineOfStopsAtNewline(a: string, b: string)
    requires '\n' !in a
    ensures LineOf(a + "\n" + b) == a
    decreases |a|
  {
    if |a| > 0 {
      assert (a + "\n" + b)[1..] == a[1..] + "\n" + b;
      LineOfStopsAtNewline(a[1..], b);
      assert [a[0]] + a[1..] == a;
    }
  }

  /** Header lines before the Link line are skipped when none of them
      holds "Link:" (every such line ends in "\n"). */
  lemma {:induction false} LinkLineSkipsEarlierLines(pre: string, rest: string)
    requires !Contains(pre, LinkTag)
    requires |pre| == 0 || pre[|pre| - 1] == '\n'
    ensures LinkLine(pre + rest) == LinkLine(rest)
    decreases |pre|
  {
    var h := pre + rest;
    if |pre| == 0 {
      assert h == rest;
    } else if |h| >= |LinkTag| {
      if |pre| >= |LinkTag| {
        assert h[..|LinkTag|] == pre[..|LinkTag|];
        assert !OccursAt(pre, 0, LinkTag, false);
      } else {
        assert h[|pre| - 1] == '\n';
      }
      assert h[..|LinkTag|] != LinkTag;
      assert h[1..] == pre[1..] + rest;
      ContainsTail(pre, LinkTag);
      LinkLineSkipsEarlierLines(pre[1..], rest);
    }
  }

  /** A header has a Link line exactly when "Link:" occurs in it. */
  lemma {:induction false} LinkLineNoneIff(header: string)
    ensures LinkLine(header).None? <==> !Contains(header, LinkTag)
    decreases |header|
  {
    if |header| >= |LinkTag| {
      if header[..|LinkTag|] == LinkTag {
        assert OccursAt(header, 0, LinkTag, false);
      } else {
        LinkLineNoneIff(header[1..]);
        ContainsShift(header, LinkTag);
      }
    }
  }

  /** The Link line of a header is found whole, up to its line break. */
  lemma LinkLineFound(pre: string, line: string, post: string)
    requires !Contains(pre, LinkTag)
    requires |pre| == 0 || pre[|pre| - 1] == '\n'
    requires |line| >= |LinkTag| && line[..|LinkTag|] == LinkTag && '\n' !in line
    ensures LinkLine(pre + line + "\n" + post) == Some(line)
  {
    assert pre + line + "\n" + post == pre + (line + "\n" + post);
    LinkLineSkipsEarlierLines(pre, line + "\n" + post);
    assert (line + "\n" + post)[..|LinkTag|] == LinkTag;
    LineOfStopsAtNewline(line, post);
  }

  /** A Link line that is not split by any "," is ignored, even when it
      names a next page. */
  lemma SinglePartLinkIgnored(header: string, line: string)
    requires LinkLine(header) == Some(line)
    requires ',' !in line
    ensures NextUrls(header) == []
  {
    SplitWithoutSeparator(line, ',');
  }

  /** Everything before the first ">" of a next part. */
  lemma BeforeAngle(u: string)
    requires '>' !in u
    ensures Split(NextPart(u), '>')[0] == "Link: <" + u
  {
    var a := "Link: <" + u;
    var b := "; " + NextRel;
    assert '>' !in a;
    assert LinkTag + " <" == "Link: <";
    AppendAssoc(a + ">", "; ", NextRel);
    SplitAtFirstSeparator(a, b, '>');
  }

  lemma StripAngleTag()
    ensures Replace("Link: ", "<", "", false) == "Link: "
  {
    ReplaceAbsentChar("Link: ", '<', "");
  }

  lemma StripAngleUrl(u: string)
    requires '<' !in u
    ensures Replace("<" + u, "<", "", false) == u
  {
    ReplaceCharDistributes("<", u, '<', "");
    ReplaceAbsentChar(u, '<', "");
    assert "<"[..1] == "<" && "<"[1..] == "";
  }

  /** Removing "<" leaves the tag and the URL. */
  lemma StripAngle(u: string)
    requires '<' !in u
    ensures Replace("Link: <" + u, "<", "", false) == "Link: " + u
  {
    StripAngleTag();
    StripAngleUrl(u);
    assert "Link: <" + u == "Link: " + ("<" + u);
    ReplaceCharDistributes("Link: ", "<" + u, '<', "");
  }

  /** Removing "Link:" leaves a space and the URL. */
  lemma StripTag(u: string)
    requires !Contains(u, LinkTag)
    ensures Replace("Link: " + u, LinkTag, "", false) == " " + u
  {
    var b := "Link: " + u;
    var c := " " + u;
    assert b[..|LinkTag|] == LinkTag && b[|LinkTag|..] == c;
    forall i | 0 <= i <= |c| - |LinkTag| ensures !OccursAt(c, i, LinkTag, false) {
      if i > 0 {
        assert c[i..i + |LinkTag|] == u[i - 1..i - 1 + |LinkTag|];
        assert !OccursAt(u, i - 1, LinkTag, false);
      } else {
        assert c[0] == ' ';
      }
    }
  }

  /** The part `Link: <u>; rel="next"` names `u`. */
  lemma NextPartUrl(u: string)
    requires '>' !in u && '<' !in u && !Contains(u, LinkTag)
    requires |u| > 0 && !IsTrimChar(u[0]) && !IsTrimChar(u[|u| - 1])
    ensures PartUrl(NextPart(u)) == u
  {
    BeforeAngle(u);
    StripAngle(u);
    StripTag(u);
    assert (" " + u)[1..] == u;
    assert TrimLeft(" " + u) == u;
  }

  /** The two parts of the Link line GitHub sends with a first page. */
  function NextPart(u: string): string {
    LinkTag + " <" + u + ">" + "; " + NextRel
  }

  function LastPart(v: string, tail: string): string {
    " <" + v + ">; rel=\"last\"" + tail
  }

  /** A part that ends in rel="next" is marked as one. */
  lemma NextPartMarked(u: string)
    ensures Contains(NextPart(u), NextRel)
  {
    var x := LinkTag + " <" + u + ">" + "; ";
    var p := x + NextRel;
    assert p == NextPart(u);
    assert p[|x|..|x| + |NextRel|] == NextRel;
    assert OccursAt(p, |x|, NextRel, false);
  }

  /** The rel="last" part is not a next part. */
  lemma LastPartNotNext(v: string, tail: string)
    requires '"' !in v && '"' !in tail
    ensures !Contains(LastPart(v, tail), NextRel)
  {
    var q := ">; rel=\"last\"";
    var p := " <" + v + q + tail;
    assert p == LastPart(v, tail);
    var m := |v|;
    forall i | 0 <= i <= |p| - |NextRel|
      ensures !OccursAt(p, i, NextRel, false)
    {
      var w := p[i..i + |NextRel|];
      if i + 4 < m + 2 {
        assert w[4] == v[i + 2];
        assert w[4] != NextRel[4];
      } else if i == m + 5 {
        assert w[5] == q[8];
        assert w[5] != NextRel[5];
      } else if i == m + 10 {
        assert w[9] == tail[4];
        assert w[9] != NextRel[9];
      } else if i + 4 < m + 15 {
        assert w[4] == q[i + 2 - m];
        assert w[4] != NextRel[4];
      } else {
        assert w[4] == tail[i + 4 - m - 15];
        assert w[4] != NextRel[4];
      }
    }
  }

  /** The Link line GitHub sends with a first page. */
  function FirstPageLink(u: string, v: string, tail: string): string {
    NextPart(u) + [','] + LastPart(v, tail)
  }

  lemma FirstPageLinkParts(u: string, v: string, tail: string)
    requires ',' !in u && ',' !in v && ',' !in tail
    ensures Split(FirstPageLink(u, v, tail), ',') == [NextPart(u), LastPart(v, tail)]
  {
    var p1 := NextPart(u);
    var p2 := LastPart(v, tail);
    assert ',' !in p1 && ',' !in p2;
    SplitAtFirstSeparator(p1, p2, ',');
    SplitWithoutSeparator(p2, ',');
  }

  lemma FirstPageLinkFound(pre: string, u: string, v: string, tail: string, post: string)
    requires !Contains(pre, LinkTag)
    requires |pre| == 0 || pre[|pre| - 1] == '\n'
    requires '\n' !in u && '\n' !in v && '\n' !in tail
    ensures LinkLine(pre + FirstPageLink(u, v, tail) + "\n" + post) == Some(FirstPageLink(u, v, tail))
  {
    var line := FirstPageLink(u, v, tail);
    assert line[..|LinkTag|] == LinkTag;
    assert '\n' !in NextPart(u) && '\n' !in LastPart(v, tail);
    LinkLineFound(pre, line, post);
  }

  lemma FirstPageNextParts(u: string, v: string, tail: string)
    requires '>' !in u && '<' !in u && !Contains(u, LinkTag)
    requires |u| > 0 && !IsTrimChar(u[0]) && !IsTrimChar(u[|u| - 1])
    requires '"' !in v && '"' !in tail
    ensures NextParts([NextPart(u), LastPart(v, tail)]) == [u]
  {
    NextPartMarked(u);
    LastPartNotNext(v, tail);
    NextPartUrl(u);
    assert [NextPart(u), LastPart(v, tail)][1..] == [LastPart(v, tail)];
    assert [LastPart(v, tail)][1..] == [];
  }

  /** A GitHub first-page header, with the line
      `Link: <u>; rel="next", <v>; rel="last"` among its lines, makes
      `CurlGitHub` follow `u` and only `u`. */
  lemma GitHubFirstPageHeader(pre: string, u: string, v: string, tail: string, post: string)
    requires !Contains(pre, LinkTag)
    requires |pre| == 0 || pre[|pre| - 1] == '\n'
    requires '>' !in u && '<' !in u && !Contains(u, LinkTag)
    requires |u| > 0 && !IsTrimChar(u[0]) && !IsTrimChar(u[|u| - 1])
    requires ',' !in u && ',' !in v && ',' !in tail
    requires '\n' !in u && '\n' !in v && '\n' !in tail
    requires '"' !in v && '"' !in tail
    ensures NextUrls(pre + FirstPageLink(u, v, tail) + "\n" + post) == [u]
  {
    FirstPageLinkFound(pre, u, v, tail, post);
    FirstPageLinkParts(u, v, tail);
    FirstPageNextParts(u, v, tail);
  }
}

=== FILE: php.dfy ===
/** Pure models of the PHP built-ins the release bot leans on: `substr` from
    offset 0, `trim`, `explode`/`implode` on one character, `str_replace` and
    `str_ireplace` of one needle, `strstr` used as a containment test, `end`
    and `array_diff`. Strings are sequences of characters. */
module Php {

  datatype Option<+T> = None | Some(value: T)

  /** PHP's truthiness of a string: only "" and "0" are false. */
  predicate Truthy(s: string) {
    s != "" && s != "0"
  }

  /** `substr($s, 0, $n)` for a non-negative length. */
  function Prefix(s: string, n: nat): (r: string)
    ensures r <= s
    ensures |r| == if |s| < n then |s| else n
  {
    if |s| <= n then s else s[..n]
  }

  /** `end($a)`: the last element, or PHP's `false` (here `None`) on an empty array. */
  function End<T>(a: seq<T>): Option<T> {
    if |a| == 0 then None else Some(a[|a| - 1])
  }

  lemma AppendAssoc<T>(a: seq<T>, b: seq<T>, c: seq<T>)
    ensures a + b + c == a + (b + c)
  {
  }

  // ---------------------------------------------------------------- trim

  /** The characters `trim` strips by default: space, tab, newline, carriage
      return, NUL and vertical tab. */
  predicate IsTrimChar(c: char) {
    c == ' ' || c == '\t' || c == '\n' || c == '\r' || c == '\0' || c == '\U{B}'
  }

  predicate AllTrimChars(s: string) {
    forall k :: 0 <= k < |s| ==> IsTrimChar(s[k])
  }

  /** `ltrim`: a suffix that does not start with a trim character. */
  function TrimLeft(s: string): (r: string)
    ensures |r| <= |s| && r == s[|s| - |r|..]
    ensures r == [] || !IsTrimChar(r[0])
    decreases |s|
  {
    if |s| > 0 && IsTrimChar(s[0]) then TrimLeft(s[1..]) else s
  }

  /** `ltrim` drops trim characters only: its result is the longest suffix
      that does not start with one. */
  lemma {:induction false} TrimLeftDropsTrimChars(s: string)
    ensures AllTrimChars(s[..|s| - |TrimLeft(s)|])
    decreases |s|
  {
    if |s| > 0 && IsTrimChar(s[0]) {
      TrimLeftDropsTrimChars(s[1..]);
      var n := |s| - |TrimLeft(s)|;
      assert s[..n] == [s[0]] + s[1..][..n - 1];
    }
  }

  /** `rtrim`: a prefix that does not end with a trim character. */
  function TrimRight(s: string): (r: string)
    ensures |r| <= |s| && r == s[..|r|]
    ensures r == [] || !IsTrimChar(r[|r| - 1])
    decreases |s|
  {
    if |s| > 0 && IsTrimChar(s[|s| - 1]) then TrimRight(s[..|s| - 1]) else s
  }

  /** `rtrim` drops trim characters only: its result is the longest prefix
      that does not end with one. */
  lemma {:induction false} TrimRightDropsTrimChars(s: string)
    ensures AllTrimChars(s[|TrimRight(s)|..])
    decreases |s|
  {
    if |s| > 0 && IsTrimChar(s[|s| - 1]) {
      TrimRightDropsTrimChars(s[..|s| - 1]);
      var n := |TrimRight(s)|;
      assert s[n..] == s[..|s| - 1][n..] + [s[|s| - 1]];
    }
  }

  /** `trim`: both ends stripped. */
  function Trim(s: string): (r: string)
    ensures |r| <= |s|
    ensures r == [] || (!IsTrimChar(r[0]) && !IsTrimChar(r[|r| - 1]))
  {
    var l := TrimLeft(s);
    var r := TrimRight(l);
    assert r == [] || r[0] == l[0];
    r
  }

  /** `trim` removes trim characters only, and only at the two ends: its
      result is a piece of the input with nothing but trim characters before
      and after it. With `Trim`'s own contract (no trim character at either
      end of the result) this pins the result down. */
  lemma TrimInfix(s: string)
    ensures exists i ::
              && 0 <= i <= |s| - |Trim(s)| && Trim(s) == s[i..i + |Trim(s)|]
              && AllTrimChars(s[..i]) && AllTrimChars(s[i + |Trim(s)|..])
  {
    var l := TrimLeft(s);
    var r := Trim(s);
    assert r == TrimRight(l);
    var i := |s| - |l|;
    assert AllTrimChars(s[..i]) by {
      TrimLeftDropsTrimChars(s);
    }
    assert r == s[i..i + |r|] && AllTrimChars(s[i + |r|..]) by {
      TrimRightDropsTrimChars(l);
      assert l == s[i..];
      assert s[i..][..|r|] == s[i..i + |r|];
      assert s[i..][|r|..] == s[i + |r|..];
    }
  }

  /** Trimming twice is trimming once. */
  lemma TrimIdempotent(s: string)
    ensures Trim(Trim(s)) == Trim(s)
  {
    var t := Trim(s);
    assert TrimLeft(t) == t;
    assert TrimRight(t) == t;
  }

  // ---------------------------------------------------------------- explode / implode

  /** `implode` with a one-character glue. `explode` never returns an empty
      array, so neither is one accepted here. */
  function Join(ps: seq<string>, sep: char): string
    requires |ps| > 0
    decreases |ps|
  {
    if |ps| == 1 then ps[0] else ps[0] + [sep] + Join(ps[1..], sep)
  }

  /** `explode` on a one-character delimiter. */
  function Split(s: string, sep: char): (r: seq<string>)
    ensures |r| > 0
    ensures forall k :: 0 <= k < |r| ==> sep !in r[k]
    ensures Join(r, sep) == s
    decreases |s|
  {
    if |s| == 0 then [""]
    else
      var rest := Split(s[1..], sep);
      if s[0] == sep then
        [""] + rest
      else
        assert Join(rest, sep) == s[1..];
        [[s[0]] + rest[0]] + rest[1..]
  }

  /** `explode` of one piece that holds no delimiter is that piece alone. */
  lemma {:induction false} SplitWithoutSeparator(a: string, sep: char)
    requires sep !in a
    ensures Split(a, sep) == [a]
    decreases |a|
  {
    if |a| > 0 {
      SplitWithoutSeparator(a[1..], sep);
      assert [a[0]] + a[1..] == a;
    }
  }

  /** `explode` cuts at the first delimiter and continues after it. */
  lemma {:induction false} SplitAtFirstSeparator(a: string, b: string, sep: char)
    requires sep !in a
    ensures Split(a + [sep] + b, sep) == [a] + Split(b, sep)
    decreases |a|
  {
    var s := a + [sep] + b;
    if |a| == 0 {
      assert s[1..] == b;
    } else {
      assert s[1..] == a[1..] + [sep] + b;
      SplitAtFirstSeparator(a[1..], b, sep);
      assert [a[0]] + a[1..] == a;
    }
  }

  /** `explode` undoes `implode` when no piece holds the delimiter. */
  lemma {:induction false} SplitJoin(ps: seq<string>, sep: char)
    requires |ps| > 0
    requires forall k :: 0 <= k < |ps| ==> sep !in ps[k]
    ensures Split(Join(ps, sep), sep) == ps
    decreases |ps|
  {
    if |ps| == 1 {
      SplitWithoutSeparator(ps[0], sep);
    } else {
      SplitAtFirstSeparator(ps[0], Join(ps[1..], sep), sep);
      SplitJoin(ps[1..], sep);
      assert [ps[0]] + ps[1..] == ps;
    }
  }

  /** Joining a concatenation glues the two joins with one delimiter. */
  lemma {:induction false} JoinAppend(ps: seq<string>, qs: seq<string>, sep: char)
    requires |ps| > 0 && |qs| > 0
    ensures Join(ps + qs, sep) == Join(ps, sep) + [sep] + Join(qs, sep)
    decreases |ps|
  {
    if |ps| == 1 {
      assert (ps + qs)[1..] == qs;
    } else {
      assert (ps + qs)[1..] == ps[1..] + qs;
      JoinAppend(ps[1..], qs, sep);
    }
  }

  // ---------------------------------------------------------------- str_replace

  /** Lower-cases an ASCII letter; any other character is its own lower case. */
  function Lower(c: char): char {
    if 'A' <= c <= 'Z' then (c as int + 32) as char else c
  }

  /** Equal text, ignoring ASCII letter case when `fold` is set. */
  predicate SameText(a: string, b: string, fold: bool) {
    |a| == |b| &&
    forall k :: 0 <= k < |a| ==> if fold then Lower(a[k]) == Lower(b[k]) else a[k] == b[k]
  }

  /** `needle` occurs in `s` at position `i`. */
  predicate OccursAt(s: string, i: int, needle: string, fold: bool) {
    0 <= i && i + |needle| <= |s| && SameText(s[i..i + |needle|], needle, fold)
  }

  /** `strstr($s, $needle)` used as a truth value (for a non-empty needle). */
  predicate Contains(s: string, needle: string) {
    exists i :: 0 <= i <= |s| - |needle| && OccursAt(s, i, needle, false)
  }

  /** A needle absent from a string is absent from its tail. */
  lemma ContainsTail(s: string, needle: string)
    requires |s| > 0
    ensures !Contains(s, needle) ==> !Contains(s[1..], needle)
  {
    forall i | 0 <= i <= |s[1..]| - |needle| && OccursAt(s[1..], i, needle, false)
      ensures OccursAt(s, i + 1, needle, false)
    {
      OccursAtTail(s, i, needle, false);
    }
  }

  /** A needle that does not start a string occurs in it exactly when it
      occurs in its tail. */
  lemma ContainsShift(s: string, needle: string)
    requires |s| >= |needle| && s[..|needle|] != needle
    ensures Contains(s, needle) <==> Contains(s[1..], needle)
  {
    ContainsTail(s, needle);
    if Contains(s, needle) {
      var i :| 0 <= i <= |s| - |needle| && OccursAt(s, i, needle, false);
      assert i != 0;
      assert s[1..][i - 1..i - 1 + |needle|] == s[i..i + |needle|];
      assert OccursAt(s[1..], i - 1, needle, false);
    }
  }

  /** An occurrence in the tail is an occurrence one place further on. */
  lemma OccursAtTail(s: string, i: int, needle: string, fold: bool)
    requires |s| > 0 && OccursAt(s[1..], i, needle, fold)
    ensures OccursAt(s, i + 1, needle, fold)
  {
    assert s[1..][i..i + |needle|] == s[i + 1..i + 1 + |needle|];
  }

  /** `str_replace` (fold = false) and `str_ireplace` (fold = true) of one
      needle: a left-to-right scan that replaces non-overlapping occurrences.
      An empty needle leaves the subject as it is. */
  function Replace(s: string, needle: string, with: string, fold: bool): (r: string)
    ensures (forall i :: 0 <= i <= |s| - |needle| ==> !OccursAt(s, i, needle, fold)) && |needle| > 0 ==> r == s
    ensures |needle| == 1 && !fold && needle[0] !in with ==> needle[0] !in r
    ensures |with| <= |needle| ==> |r| <= |s|
    decreases |s|
  {
    if |needle| == 0 || |s| < |needle| then s
    else if SameText(s[..|needle|], needle, fold) then
      assert OccursAt(s, 0, needle, fold);
      with + Replace(s[|needle|..], needle, with, fold)
    else
      var rest := Replace(s[1..], needle, with, fold);
      assert (forall i :: 0 <= i <= |s| - |needle| ==> !OccursAt(s, i, needle, fold)) ==>
             (forall i :: 0 <= i <= |s[1..]| - |needle| ==> !OccursAt(s[1..], i, needle, fold)) by {
        forall i | 0 <= i <= |s[1..]| - |needle| && OccursAt(s[1..], i, needle, fold)
          ensures OccursAt(s, i + 1, needle, fold)
        {
          OccursAtTail(s, i, needle, fold);
        }
      }
      [s[0]] + rest
  }

  /** Replacing a one-character needle works piece by piece: no occurrence
      can straddle a cut. */
  lemma {:induction false} ReplaceCharDistributes(a: string, b: string, c: char, with: string)
    ensures Replace(a + b, [c], with, false) == Replace(a, [c], with, false) + Replace(b, [c], with, false)
    decreases |a|
  {
    if |a| > 0 {
      assert (a + b)[1..] == a[1..] + b;
      assert (a + b)[..1] == a[..1];
      ReplaceCharDistributes(a[1..], b, c, with);
    } else {
      assert a + b == b;
    }
  }

  /** A one-character needle that is absent leaves the subject as it is. */
  lemma ReplaceAbsentChar(s: string, c: char, with: string)
    requires c !in s
    ensures Replace(s, [c], with, false) == s
  {
    forall i | 0 <= i <= |s| - 1 ensures !OccursAt(s, i, [c], false) {
      assert s[i..i + 1][0] == s[i];
    }
  }

  // ---------------------------------------------------------------- array_diff

  /** `array_diff($a, $b)` read in iteration order: the elements of `a` that
      do not occur in `b`, in their order, duplicates kept. PHP compares the
      elements as strings, which is all they are here. */
  function ArrayDiff(a: seq<string>, b: seq<string>): (r: seq<string>)
    ensures forall x :: x in r <==> x in a && x !in b
    decreases |a|
  {
    if |a| == 0 then []
    else
      var rest := ArrayDiff(a[1..], b);
      assert forall x :: x in a <==> x == a[0] || x in a[1..];
      if a[0] in b then rest else [a[0]] + rest
  }

  /** Each value survives `array_diff` with its full multiplicity, or not at all. */
  lemma {:induction false} ArrayDiffCounts(a: seq<string>, b: seq<string>)
    ensures forall x :: multiset(ArrayDiff(a, b))[x] == if x in b then 0 else multiset(a)[x]
    decreases |a|
  {
    if |a| > 0 {
      ArrayDiffCounts(a[1..], b);
      assert a == [a[0]] + a[1..];
      assert multiset(a) == multiset([a[0]]) + multiset(a[1..]);
    }
  }

  /** `array_diff` keeps the order of its first argument. */
  lemma {:induction false} ArrayDiffIsSubsequence(a: seq<string>, b: seq<string>)
    ensures IsSubsequence(ArrayDiff(a, b), a)
    decreases |a|
  {
    if |a| > 0 {
      ArrayDiffIsSubsequence(a[1..], b);
      var r := ArrayDiff(a, b);
      if a[0] !in b {
        assert r[1..] == ArrayDiff(a[1..], b);
      }
    }
  }

  /** An array none of whose elements occur in `b` passes `array_diff` whole. */
  lemma {:induction false} ArrayDiffKeepsDisjoint(a: seq<string>, b: seq<string>)
    requires forall x :: x in a ==> x !in b
    ensures ArrayDiff(a, b) == a
    decreases |a|
  {
    if |a| > 0 {
      assert a[0] in a;
      assert forall x :: x in a[1..] ==> x in a;
      ArrayDiffKeepsDisjoint(a[1..], b);
      assert [a[0]] + a[1..] == a;
    }
  }

  /** A second `array_diff` against the same array changes nothing. */
  lemma ArrayDiffIdempotent(a: seq<string>, b: seq<string>)
    ensures ArrayDiff(ArrayDiff(a, b), b) == ArrayDiff(a, b)
  {
    ArrayDiffKeepsDisjoint(ArrayDiff(a, b), b);
  }

  /** `sub` is `a` with some elements left out, order kept. */
  predicate IsSubsequence(sub: seq<string>, a: seq<string>)
    decreases |a|
  {
    if |sub| == 0 then true
    else if |a| == 0 then false
    else if sub[0] == a[0] then IsSubsequence(sub[1..], a[1..])
    else IsSubsequence(sub, a[1..])
  }
}

=== FILE: properties.dfy ===
/** What the release validator promises, stated about `Validator.Validate`
    and `Validator.ValidateAll`: which line appears when, what the pass flag
    means, what it ignores, and how `$prHash` leaks from one pull request
    and one ticket to the next. */
module Properties {
  import opened Php
  import opened Hashes
  import opened Release
  import opened Validator

  // ---------------------------------------------------------------- failing lines

  /** The checks' verdicts in terms of the display hashes and the collected
      pull-request state; the lemmas after each lift them to `Validate`. */
  lemma JudgeHashMissing(t: Ticket, siblings: seq<Sibling>, display: seq<string>, prs: PrState)
    requires Consistent(prs)
    ensures HashMissing in Judge(t, siblings, display, prs).lines <==> |display| == 0
  {
    WrittenByCheck(t, siblings, display, prs, HashMissing, 1);
  }

  /** "Hash Missing." is written exactly when the commit field holds no run of
      forty lower-case letters and digits. */
  lemma HashMissingIff(t: Ticket, siblings: seq<Sibling>, host: CodeHost, prHash: Option<string>)
    ensures HashMissing in Validate(t, siblings, host, prHash).lines <==> forall q :: !HashAt(t.commitField, q)
  {
    JudgeHashMissing(t, siblings, DisplayHashes(t.commitField), PrLoop(t, host, prHash));
    NoDisplayHashIff(t.commitField);
  }

  lemma JudgePullRequestMissing(t: Ticket, siblings: seq<Sibling>, display: seq<string>, prs: PrState)
    requires Consistent(prs)
    ensures PullRequestMissing in Judge(t, siblings, display, prs).lines <==> |t.prUrls| == 0
  {
    WrittenByCheck(t, siblings, display, prs, PullRequestMissing, 2);
  }

  /** "Pull Request Missing." is written exactly when no URL candidate was found. */
  lemma PullRequestMissingIff(t: Ticket, siblings: seq<Sibling>, host: CodeHost, prHash: Option<string>)
    ensures PullRequestMissing in Validate(t, siblings, host, prHash).lines <==> |t.prUrls| == 0
  {
    JudgePullRequestMissing(t, siblings, DisplayHashes(t.commitField), PrLoop(t, host, prHash));
  }

  lemma JudgeFixVersionMissing(t: Ticket, siblings: seq<Sibling>, display: seq<string>, prs: PrState)
    requires Consistent(prs)
    ensures FixVersionMissing in Judge(t, siblings, display, prs).lines <==>
      |t.fixVersions| == 0 || !Truthy(t.fixVersions[0])
  {
    WrittenByCheck(t, siblings, display, prs, FixVersionMissing, 4);
  }

  /** "FixVersion Missing." is written exactly when there is no first fix
      version or its name is "" or "0". */
  lemma FixVersionMissingIff(t: Ticket, siblings: seq<Sibling>, host: CodeHost, prHash: Option<string>)
    ensures FixVersionMissing in Validate(t, siblings, host, prHash).lines <==>
      |t.fixVersions| == 0 || !Truthy(t.fixVersions[0])
  {
    JudgeFixVersionMissing(t, siblings, DisplayHashes(t.commitField), PrLoop(t, host, prHash));
  }

  lemma JudgeNoSecurityTasks(t: Ticket, siblings: seq<Sibling>, display: seq<string>, prs: PrState)
    requires Consistent(prs)
    ensures NoSecurityTasks in Judge(t, siblings, display, prs).lines <==>
      forall st :: st in t.subtasks ==> !IsSignOff(st, t.summary)
  {
    WrittenByCheck(t, siblings, display, prs, NoSecurityTasks, 5);
    CheckSecurity(t, siblings, display, prs);
    SignOffCountPositive(t.subtasks, t.summary);
  }

  /** "No security tasks found." is written exactly when no sub-task's trimmed
      summary is the sign-off title of this release. */
  lemma NoSecurityTasksIff(t: Ticket, siblings: seq<Sibling>, host: CodeHost, prHash: Option<string>)
    ensures NoSecurityTasks in Validate(t, siblings, host, prHash).lines <==>
      forall st :: st in t.subtasks ==> !IsSignOff(st, t.summary)
  {
    JudgeNoSecurityTasks(t, siblings, DisplayHashes(t.commitField), PrLoop(t, host, prHash));
  }

  lemma JudgeNoAssociatedIssues(t: Ticket, siblings: seq<Sibling>, display: seq<string>, prs: PrState)
    requires Consistent(prs)
    ensures NoAssociatedIssues in Judge(t, siblings, display, prs).lines <==> |siblings| == 0
  {
    WrittenByCheck(t, siblings, display, prs, NoAssociatedIssues, 6);
  }

  /** "No issues associated with the release." is written exactly when the fix
      version has no other issue. */
  lemma NoAssociatedIssuesIff(t: Ticket, siblings: seq<Sibling>, host: CodeHost, prHash: Option<string>)
    ensures NoAssociatedIssues in Validate(t, siblings, host, prHash).lines <==> |siblings| == 0
  {
    JudgeNoAssociatedIssues(t, siblings, DisplayHashes(t.commitField), PrLoop(t, host, prHash));
  }

  // ---------------------------------------------------------------- informing lines

  lemma JudgeHotfix(t: Ticket, siblings: seq<Sibling>, display: seq<string>, prs: PrState)
    requires Consistent(prs)
    ensures Hotfix in Judge(t, siblings, display, prs).lines <==> |t.hotfix| > 0
  {
    WrittenByCheck(t, siblings, display, prs, Hotfix, 0);
    assert Hotfix !in BlockerLines(t.links);
  }

  /** The hotfix mark is written exactly when the hotfix field is set. */
  lemma HotfixIff(t: Ticket, siblings: seq<Sibling>, host: CodeHost, prHash: Option<string>)
    ensures Hotfix in Validate(t, siblings, host, prHash).lines <==> |t.hotfix| > 0
  {
    JudgeHotfix(t, siblings, DisplayHashes(t.commitField), PrLoop(t, host, prHash));
  }

  lemma JudgeBlockers(t: Ticket, siblings: seq<Sibling>, display: seq<string>, prs: PrState)
    requires Consistent(prs)
    ensures forall l :: l in t.links && Blocking(l) ==> BlockedLine(l) in Judge(t, siblings, display, prs).lines
    ensures forall d :: d in Judge(t, siblings, display, prs).lines && d.BlockedBy? ==>
      exists l :: l in t.links && Blocking(l) && d == BlockedLine(l)
  {
    forall d: Diagnostic | d.BlockedBy?
      ensures d in Judge(t, siblings, display, prs).lines <==> d in Check(t, siblings, display, prs, 0).lines
    {
      WrittenByCheck(t, siblings, display, prs, d, 0);
    }
    var blockers := BlockerLines(t.links);
    CheckNotice(t, siblings, display, prs);
    assert Check(t, siblings, display, prs, 0).lines == [Header(t.summary, t.key)] + HotfixLines(t.hotfix) + blockers;
  }

  /** Every open blocker is named, and every named blocker is an open one. */
  lemma BlockersReported(t: Ticket, siblings: seq<Sibling>, host: CodeHost, prHash: Option<string>)
    ensures forall l :: l in t.links && Blocking(l) ==> BlockedLine(l) in Validate(t, siblings, host, prHash).lines
    ensures forall d :: d in Validate(t, siblings, host, prHash).lines && d.BlockedBy? ==>
      exists l :: l in t.links && Blocking(l) && d == BlockedLine(l)
  {
    JudgeBlockers(t, siblings, DisplayHashes(t.commitField), PrLoop(t, host, prHash));
  }

  /** The security check lists exactly the open sub-tasks. */
  lemma SecuritySectionLists(subtasks: seq<Subtask>, summary: string)
    ensures forall d: Diagnostic :: d.OpenSubtask? ==> (d in SecuritySection(subtasks, summary).lines <==> d in OpenSubtaskLines(subtasks))
  {
    var open := OpenSubtaskLines(subtasks);
    var verdict: seq<Diagnostic> := if SignOffCount(subtasks, summary) < 1 then [NoSecurityTasks] else [];
    assert SecuritySection(subtasks, summary).lines == open + verdict;
  }

  lemma JudgeOpenSubtasks(t: Ticket, siblings: seq<Sibling>, display: seq<string>, prs: PrState)
    requires Consistent(prs)
    ensures forall st :: st in t.subtasks && st.status != "Closed" ==> OpenSubtaskLine(st) in Judge(t, siblings, display, prs).lines
    ensures forall d :: d in Judge(t, siblings, display, prs).lines && d.OpenSubtask? ==>
      exists st :: st in t.subtasks && st.status != "Closed" && d == OpenSubtaskLine(st)
  {
    forall d: Diagnostic | d.OpenSubtask?
      ensures d in Judge(t, siblings, display, prs).lines <==> d in Check(t, siblings, display, prs, 5).lines
    {
      WrittenByCheck(t, siblings, display, prs, d, 5);
    }
    CheckSecurity(t, siblings, display, prs);
    SecuritySectionLists(t.subtasks, t.summary);
  }

  /** Every sub-task that is not Closed is listed, and only those. */
  lemma OpenSubtasksReported(t: Ticket, siblings: seq<Sibling>, host: CodeHost, prHash: Option<string>)
    ensures forall st :: st in t.subtasks && st.status != "Closed" ==> OpenSubtaskLine(st) in Validate(t, siblings, host, prHash).lines
    ensures forall d :: d in Validate(t, siblings, host, prHash).lines && d.OpenSubtask? ==>
      exists st :: st in t.subtasks && st.status != "Closed" && d == OpenSubtaskLine(st)
  {
    JudgeOpenSubtasks(t, siblings, DisplayHashes(t.commitField), PrLoop(t, host, prHash));
  }

  lemma JudgeNotTerminal(t: Ticket, siblings: seq<Sibling>, display: seq<string>, prs: PrState)
    requires Consistent(prs)
    ensures forall s :: s in siblings && s.statusId !in TerminalStatusIds ==> NotTerminal(s.key) in Judge(t, siblings, display, prs).lines
    ensures forall d :: d in Judge(t, siblings, display, prs).lines && d.NotTerminal? ==>
      exists s :: s in siblings && s.statusId !in TerminalStatusIds && d == NotTerminal(s.key)
  {
    forall d: Diagnostic | d.NotTerminal?
      ensures d in Judge(t, siblings, display, prs).lines <==> d in Check(t, siblings, display, prs, 6).lines
    {
      WrittenByCheck(t, siblings, display, prs, d, 6);
    }
    var named := NotTerminalLines(siblings);
    CheckSiblings(t, siblings, display, prs);
    assert forall d :: d in Check(t, siblings, display, prs, 6).lines && d.NotTerminal? <==> d in named;
  }

  /** Every sibling outside Releasable, Resolved and Closed is named, and only those. */
  lemma NotTerminalReported(t: Ticket, siblings: seq<Sibling>, host: CodeHost, prHash: Option<string>)
    ensures forall s :: s in siblings && s.statusId !in TerminalStatusIds ==> NotTerminal(s.key) in Validate(t, siblings, host, prHash).lines
    ensures forall d :: d in Validate(t, siblings, host, prHash).lines && d.NotTerminal? ==>
      exists s :: s in siblings && s.statusId !in TerminalStatusIds && d == NotTerminal(s.key)
  {
    JudgeNotTerminal(t, siblings, DisplayHashes(t.commitField), PrLoop(t, host, prHash));
  }

  // ---------------------------------------------------------------- commit reconciliation

  /** The short hashes of all the ticket's pull requests, in order. */
  function AllPullRequestHashes(prs: seq<string>, host: CodeHost): (hs: seq<string>)
    ensures forall h :: h in hs <==> exists pr :: pr in prs && h in PullRequestHashes(pr, host)
    decreases |prs|
  {
    if |prs| == 0 then []
    else
      assert forall pr :: pr in prs <==> pr == prs[0] || pr in prs[1..];
      PullRequestHashes(prs[0], host) + AllPullRequestHashes(prs[1..], host)
  }

  lemma CheckPullRequestCommits(pr: string, display: seq<string>, host: CodeHost, st: PrState)
    ensures CheckPullRequest(pr, display, host, st).prCommits == st.prCommits + PullRequestHashes(pr, host)
  {
  }

  /** The loop collects every pull request's commits, whatever `$prHash` does. */
  lemma {:induction false} LoopCollectsCommits(prs: seq<string>, display: seq<string>, host: CodeHost, st: PrState)
    ensures CheckPullRequests(prs, display, host, st).prCommits == st.prCommits + AllPullRequestHashes(prs, host)
    decreases |prs|
  {
    if |prs| > 0 {
      var hs := PullRequestHashes(prs[0], host);
      var next := CheckPullRequest(prs[0], display, host, st);
      CheckPullRequestCommits(prs[0], display, host, st);
      LoopCollectsCommits(prs[1..], display, host, next);
      AppendAssoc(st.prCommits, hs, AllPullRequestHashes(prs[1..], host));
    }
  }

  lemma PrLoopCommits(t: Ticket, host: CodeHost, prHash: Option<string>)
    ensures PrLoop(t, host, prHash).prCommits == AllPullRequestHashes(t.prUrls, host)
  {
    LoopCollectsCommits(t.prUrls, DisplayHashes(t.commitField), host, StartState(prHash));
  }

  /** The layout of the reconciliation lines: a heading, then the entry of
      the k-th unknown commit at position k + 1. */
  lemma DiffSectionShape(prCommits: seq<string>, smart: seq<string>, messages: map<string, string>, k: int)
    requires forall h :: h in prCommits ==> h in messages
    requires 0 <= k < |ArrayDiff(prCommits, smart)|
    ensures var diff := ArrayDiff(prCommits, smart);
      var lines := DiffSection(prCommits, smart, messages).lines;
      && |lines| == |diff| + 1 && lines[0] == DiffHeader
      && diff[k] in messages && lines[k + 1] == DiffEntry(diff[k], messages[diff[k]])
  {
    var diff := ArrayDiff(prCommits, smart);
    assert diff[k] in diff;
  }

  /** The reconciliation lines: a heading when some commit is unknown to
      Jira, then one entry per unknown commit with its cached message. */
  lemma DiffSectionLines(prCommits: seq<string>, smart: seq<string>, messages: map<string, string>)
    requires forall h :: h in prCommits ==> h in messages
    requires CleanCache(messages)
    ensures var diff := ArrayDiff(prCommits, smart);
      var lines := DiffSection(prCommits, smart, messages).lines;
      && (DiffHeader in lines <==> |diff| > 0)
      && (forall h :: h in diff ==> DiffEntry(h, messages[h]) in lines)
      && (forall h, m :: DiffEntry(h, m) in lines ==> h in diff && |m| <= MessageLimit && '\n' !in m)
  {
    var diff := ArrayDiff(prCommits, smart);
    var lines := DiffSection(prCommits, smart, messages).lines;
    forall h | h in diff
      ensures DiffEntry(h, messages[h]) in lines
    {
      var k :| 0 <= k < |diff| && diff[k] == h;
      DiffSectionShape(prCommits, smart, messages, k);
    }
    forall h, m | DiffEntry(h, m) in lines
      ensures h in diff && |m| <= MessageLimit && '\n' !in m
    {
      var k :| 0 <= k < |lines| && lines[k] == DiffEntry(h, m);
      DiffSectionShape(prCommits, smart, messages, k - 1);
    }
  }

  /** `lines` report the commits of `diff`: a heading when there is one,
      an entry for each with a clean message, and no other entry. */
  ghost predicate ReportsDiff(lines: seq<Diagnostic>, diff: seq<string>) {
    && (DiffHeader in lines <==> |diff| > 0)
    && (forall h :: h in diff ==> exists m :: DiffEntry(h, m) in lines)
    && (forall h, m :: DiffEntry(h, m) in lines ==> h in diff && |m| <= MessageLimit && '\n' !in m)
  }

  /** Two messages with the same reconciliation lines report the same commits. */
  lemma ReportsDiffTransfer(a: seq<Diagnostic>, b: seq<Diagnostic>, diff: seq<string>)
    requires forall d: Diagnostic :: d.DiffHeader? || d.DiffEntry? ==> (d in a <==> d in b)
    ensures ReportsDiff(a, diff) ==> ReportsDiff(b, diff)
  {
    if ReportsDiff(a, diff) {
      forall h | h in diff
        ensures exists m :: DiffEntry(h, m) in b
      {
        var m :| DiffEntry(h, m) in a;
        assert DiffEntry(h, m) in b;
      }
    }
  }

  lemma JudgeDiff(t: Ticket, siblings: seq<Sibling>, display: seq<string>, prs: PrState)
    requires Consistent(prs)
    ensures var diff := ArrayDiff(prs.prCommits, SmartCommits(siblings));
      var lines := Judge(t, siblings, display, prs).lines;
      && (DiffHeader in lines <==> |diff| > 0)
      && (forall h :: h in diff ==> exists m :: DiffEntry(h, m) in lines)
      && (forall h, m :: DiffEntry(h, m) in lines ==> h in diff && |m| <= MessageLimit && '\n' !in m)
  {
    var lines := Judge(t, siblings, display, prs).lines;
    var section := Check(t, siblings, display, prs, 7).lines;
    forall d: Diagnostic | d.DiffHeader? || d.DiffEntry?
      ensures d in section <==> d in lines
    {
      WrittenByCheck(t, siblings, display, prs, d, 7);
    }
    var diff := ArrayDiff(prs.prCommits, SmartCommits(siblings));
    assert ReportsDiff(section, diff) by {
      var messages := prs.messages;
      CheckDiff(t, siblings, display, prs);
      DiffSectionLines(prs.prCommits, SmartCommits(siblings), messages);
      forall h | h in diff
        ensures exists m :: DiffEntry(h, m) in section
      {
        assert DiffEntry(h, messages[h]) in section;
      }
    }
    ReportsDiffTransfer(section, lines, diff);
  }

  /** The commit entries of a message, in order. */
  function DiffEntries(ds: seq<Diagnostic>): seq<Diagnostic>
    decreases |ds|
  {
    if |ds| == 0 then [] else (if ds[0].DiffEntry? then [ds[0]] else []) + DiffEntries(ds[1..])
  }

  lemma {:induction false} DiffEntriesAppend(a: seq<Diagnostic>, b: seq<Diagnostic>)
    ensures DiffEntries(a + b) == DiffEntries(a) + DiffEntries(b)
    decreases |a|
  {
    if |a| == 0 {
      assert a + b == b;
    } else {
      assert (a + b)[0] == a[0];
      assert (a + b)[1..] == a[1..] + b;
      DiffEntriesAppend(a[1..], b);
      AppendAssoc(if a[0].DiffEntry? then [a[0]] else [], DiffEntries(a[1..]), DiffEntries(b));
    }
  }

  lemma {:induction false} DiffEntriesNone(a: seq<Diagnostic>)
    requires forall d :: d in a ==> !d.DiffEntry?
    ensures DiffEntries(a) == []
    decreases |a|
  {
    if |a| > 0 {
      assert forall d :: d in a[1..] ==> d in a;
      DiffEntriesNone(a[1..]);
    }
  }

  lemma {:induction false} DiffEntriesAll(a: seq<Diagnostic>)
    requires forall d :: d in a ==> d.DiffEntry?
    ensures DiffEntries(a) == a
    decreases |a|
  {
    if |a| > 0 {
      assert forall d :: d in a[1..] ==> d in a;
      DiffEntriesAll(a[1..]);
      assert [a[0]] + a[1..] == a;
    }
  }

  lemma InOrderTail(ss: seq<Section>, base: nat)
    requires |ss| > 0 && InOrder(ss, base)
    ensures InOrder(ss[1..], base + 1)
  {
    forall i | 0 <= i < |ss[1..]|
      ensures Agrees(ss[1..][i]) && WrittenBy(ss[1..][i], base + 1 + i)
    {
      assert ss[1..][i] == ss[i + 1];
    }
  }

  /** Only the reconciliation check writes commit entries. */
  lemma {:induction false} AllLinesEntries(ss: seq<Section>, base: nat)
    requires InOrder(ss, base)
    ensures DiffEntries(AllLines(ss)) == if base <= 7 < base + |ss| then DiffEntries(ss[7 - base].lines) else []
    decreases |ss|
  {
    if |ss| > 0 {
      InOrderTail(ss, base);
      AllLinesEntries(ss[1..], base + 1);
      DiffEntriesAppend(ss[0].lines, AllLines(ss[1..]));
      if base == 7 {
        assert DiffEntries(AllLines(ss)) == DiffEntries(ss[0].lines) + [];
      } else {
        assert forall d :: d in ss[0].lines ==> !d.DiffEntry? by {
          assert WrittenBy(ss[0], base);
        }
        DiffEntriesNone(ss[0].lines);
        if base < 7 < base + |ss| {
          assert ss[1..][7 - base - 1] == ss[7 - base];
        }
      }
    }
  }

  /** One commit entry per hash of `diff`, in order, with its cached message. */
  function EntriesOf(diff: seq<string>, messages: map<string, string>): (es: seq<Diagnostic>)
    requires forall h :: h in diff ==> h in messages
    ensures |es| == |diff|
    ensures forall k :: 0 <= k < |diff| ==> es[k] == DiffEntry(diff[k], messages[diff[k]])
  {
    seq(|diff|, k requires 0 <= k < |diff| => DiffEntry(diff[k], messages[diff[k]]))
  }

  /** The entries of the reconciliation check: one per unknown commit, in
      order, with its cached message. */
  lemma DiffSectionEntries(prCommits: seq<string>, smart: seq<string>, messages: map<string, string>)
    requires forall h :: h in prCommits ==> h in messages
    ensures var diff := ArrayDiff(prCommits, smart);
      DiffEntries(DiffSection(prCommits, smart, messages).lines) == EntriesOf(diff, messages)
  {
    var diff := ArrayDiff(prCommits, smart);
    var entries := EntriesOf(diff, messages);
    if |diff| > 0 {
      assert DiffSection(prCommits, smart, messages).lines == [DiffHeader] + entries;
      DiffEntriesAppend([DiffHeader], entries);
      assert DiffEntries([DiffHeader]) == [];
      DiffEntriesAll(entries);
    }
  }

  lemma JudgeDiffEntries(t: Ticket, siblings: seq<Sibling>, display: seq<string>, prs: PrState)
    requires Consistent(prs)
    ensures var diff := ArrayDiff(prs.prCommits, SmartCommits(siblings));
      DiffEntries(Judge(t, siblings, display, prs).lines) == EntriesOf(diff, prs.messages)
  {
    var ss := Sections(t, siblings, display, prs);
    var lines := AllLines(ss);
    assert Judge(t, siblings, display, prs).lines == if AllOk(ss) then lines + [Success] else lines;
    SectionsInOrder(t, siblings, display, prs);
    AllLinesEntries(ss, 0);
    assert ss[7] == Check(t, siblings, display, prs, 7);
    CheckDiff(t, siblings, display, prs);
    DiffSectionEntries(prs.prCommits, SmartCommits(siblings), prs.messages);
    DiffEntriesAppend(lines, [Success]);
    assert DiffEntries([Success]) == [];
  }

  /** The commits of all the ticket's pull requests, in order. */
  function AllPullRequestCommits(prs: seq<string>, host: CodeHost): seq<Commit>
    decreases |prs|
  {
    if |prs| == 0 then [] else PullRequestCommits(prs[0], host) + AllPullRequestCommits(prs[1..], host)
  }

  lemma ShortHashesAppend(a: seq<Commit>, b: seq<Commit>)
    ensures ShortHashes(a + b) == ShortHashes(a) + ShortHashes(b)
  {
  }

  /** The collected short hashes are those of the collected commits. */
  lemma {:induction false} AllHashesOfCommits(prs: seq<string>, host: CodeHost)
    ensures AllPullRequestHashes(prs, host) == ShortHashes(AllPullRequestCommits(prs, host))
    decreases |prs|
  {
    if |prs| > 0 {
      AllHashesOfCommits(prs[1..], host);
      ShortHashesAppend(PullRequestCommits(prs[0], host), AllPullRequestCommits(prs[1..], host));
    }
  }

  lemma {:induction false} CacheMessagesAppend(messages: map<string, string>, a: seq<Commit>, b: seq<Commit>)
    ensures CacheMessages(messages, a + b) == CacheMessages(CacheMessages(messages, a), b)
    decreases |a|
  {
    if |a| == 0 {
      assert a + b == b;
    } else {
      assert (a + b)[0] == a[0];
      assert (a + b)[1..] == a[1..] + b;
      CacheMessagesAppend(messages[ShortHash(a[0]) := CleanMessage(a[0].message)], a[1..], b);
    }
  }

  /** The loop caches the messages of every pull request's commits, in order. */
  lemma {:induction false} LoopCachesMessages(prs: seq<string>, display: seq<string>, host: CodeHost, st: PrState)
    ensures CheckPullRequests(prs, display, host, st).messages == CacheMessages(st.messages, AllPullRequestCommits(prs, host))
    decreases |prs|
  {
    if |prs| > 0 {
      var next := CheckPullRequest(prs[0], display, host, st);
      assert next.messages == CacheMessages(st.messages, PullRequestCommits(prs[0], host));
      LoopCachesMessages(prs[1..], display, host, next);
      CacheMessagesAppend(st.messages, PullRequestCommits(prs[0], host), AllPullRequestCommits(prs[1..], host));
    }
  }

  /** Commit `j` is the last of `cs` with short hash `h`. */
  predicate LastWithHash(cs: seq<Commit>, j: int, h: string) {
    0 <= j < |cs| && ShortHash(cs[j]) == h && forall i :: j < i < |cs| ==> ShortHash(cs[i]) != h
  }

  lemma {:induction false} LastWithHashExists(cs: seq<Commit>, h: string)
    requires h in ShortHashes(cs)
    ensures exists j :: LastWithHash(cs, j, h)
    decreases |cs|
  {
    var n := |cs| - 1;
    if ShortHash(cs[n]) == h {
      assert LastWithHash(cs, n, h);
    } else {
      var k :| 0 <= k < |cs| && ShortHashes(cs)[k] == h;
      assert ShortHashes(cs[..n])[k] == h;
      LastWithHashExists(cs[..n], h);
      var j :| LastWithHash(cs[..n], j, h);
      assert LastWithHash(cs, j, h);
    }
  }

  /** `es` holds one entry per hash of `diff`, in order, each with the
      cleaned message of the last commit of `cs` with that short hash. */
  ghost predicate ReportsLastMessages(es: seq<Diagnostic>, diff: seq<string>, cs: seq<Commit>) {
    && |es| == |diff|
    && forall k :: 0 <= k < |diff| ==>
         exists j :: LastWithHash(cs, j, diff[k]) && es[k] == DiffEntry(diff[k], CleanMessage(cs[j].message))
  }

  /** The cache built from `cs` holds, for each of their short hashes, the
      cleaned message of the last commit with that hash. */
  lemma CachedLast(cs: seq<Commit>, h: string)
    requires h in ShortHashes(cs)
    ensures exists j ::
              && LastWithHash(cs, j, h)
              && h in CacheMessages(map[], cs)
              && CacheMessages(map[], cs)[h] == CleanMessage(cs[j].message)
  {
    LastWithHashExists(cs, h);
    var j :| LastWithHash(cs, j, h);
    CacheKeepsLast(map[], cs, j);
  }

  lemma JudgeLastMessages(t: Ticket, siblings: seq<Sibling>, display: seq<string>, prs: PrState, cs: seq<Commit>)
    requires Consistent(prs)
    requires prs.prCommits == ShortHashes(cs) && prs.messages == CacheMessages(map[], cs)
    ensures ReportsLastMessages(DiffEntries(Judge(t, siblings, display, prs).lines),
                                ArrayDiff(prs.prCommits, SmartCommits(siblings)), cs)
  {
    var diff := ArrayDiff(prs.prCommits, SmartCommits(siblings));
    var es := DiffEntries(Judge(t, siblings, display, prs).lines);
    JudgeDiffEntries(t, siblings, display, prs);
    forall k | 0 <= k < |diff|
      ensures exists j :: LastWithHash(cs, j, diff[k]) && es[k] == DiffEntry(diff[k], CleanMessage(cs[j].message))
    {
      assert diff[k] in diff;
      CachedLast(cs, diff[k]);
    }
  }

  lemma PrLoopMessages(t: Ticket, host: CodeHost, prHash: Option<string>)
    ensures PrLoop(t, host, prHash).messages == CacheMessages(map[], AllPullRequestCommits(t.prUrls, host))
  {
    LoopCachesMessages(t.prUrls, DisplayHashes(t.commitField), host, StartState(prHash));
  }

  /** The commits that GitHub lists and Jira does not know are reported under
      a heading, in pull-request order and with repeats, each with the
      cleaned message of the last listed commit of that short hash; no other
      commit is. */
  lemma DiffReported(t: Ticket, siblings: seq<Sibling>, host: CodeHost, prHash: Option<string>)
    ensures var diff := ArrayDiff(AllPullRequestHashes(t.prUrls, host), SmartCommits(siblings));
      var lines := Validate(t, siblings, host, prHash).lines;
      && (DiffHeader in lines <==> |diff| > 0)
      && (forall h :: h in diff ==> exists m :: DiffEntry(h, m) in lines)
      && (forall h, m :: DiffEntry(h, m) in lines ==> h in diff && |m| <= MessageLimit && '\n' !in m)
    ensures ReportsLastMessages(DiffEntries(Validate(t, siblings, host, prHash).lines),
                                ArrayDiff(AllPullRequestHashes(t.prUrls, host), SmartCommits(siblings)),
                                AllPullRequestCommits(t.prUrls, host))
  {
    var prs := PrLoop(t, host, prHash);
    PrLoopCommits(t, host, prHash);
    JudgeDiff(t, siblings, DisplayHashes(t.commitField), prs);
    DiffEntriesReported(t, siblings, host, prHash);
  }

  lemma DiffEntriesReported(t: Ticket, siblings: seq<Sibling>, host: CodeHost, prHash: Option<string>)
    ensures ReportsLastMessages(DiffEntries(Validate(t, siblings, host, prHash).lines),
                                ArrayDiff(AllPullRequestHashes(t.prUrls, host), SmartCommits(siblings)),
                                AllPullRequestCommits(t.prUrls, host))
  {
    var prs := PrLoop(t, host, prHash);
    var display := DisplayHashes(t.commitField);
    assert Validate(t, siblings, host, prHash).lines == Judge(t, siblings, display, prs).lines;
    PrLoopCommits(t, host, prHash);
    PrLoopMessages(t, host, prHash);
    AllHashesOfCommits(t.prUrls, host);
    JudgeLastMessages(t, siblings, display, prs, AllPullRequestCommits(t.prUrls, host));
  }

  // ---------------------------------------------------------------- the pass flag

  lemma JudgeClean(t: Ticket, siblings: seq<Sibling>, display: seq<string>, prs: PrState)
    requires Consistent(prs)
    ensures Judge(t, siblings, display, prs).clean <==>
      && |display| > 0
      && |t.prUrls| > 0
      && prs.ok
      && FixVersion(t.fixVersions).Some?
      && SignOffCount(t.subtasks, t.summary) > 0
      && |siblings| > 0
      && |ArrayDiff(prs.prCommits, SmartCommits(siblings))| == 0
  {
    CleanIsConjunction(t, siblings, display, prs);
    CheckNotice(t, siblings, display, prs);
    CheckHashes(t, siblings, display, prs);
    CheckPullRequestPresence(t, siblings, display, prs);
    CheckPullRequestLoop(t, siblings, display, prs);
    CheckFixVersion(t, siblings, display, prs);
    CheckSecurity(t, siblings, display, prs);
    CheckSiblings(t, siblings, display, prs);
    CheckDiff(t, siblings, display, prs);
  }

  /** The ticket passes exactly when a full hash is declared, a pull request
      is linked, no pull request has exactly one review, no pull request's
      last commit differs from the declared head, a fix version is named, the
      sign-off sub-task exists, the fix version has other issues, and every
      pull-request commit is known to Jira. Hotfix marks, blockers, review
      states, open sub-tasks and sibling statuses play no part. */
  lemma CleanIff(t: Ticket, siblings: seq<Sibling>, host: CodeHost, prHash: Option<string>)
    ensures Validate(t, siblings, host, prHash).clean <==>
      && (exists q :: HashAt(t.commitField, q))
      && |t.prUrls| > 0
      && (forall pr :: pr in t.prUrls ==> |PullRequestReviews(pr, host)| != 1)
      && (forall d :: d in Validate(t, siblings, host, prHash).lines ==> !d.LastCommitIsNot?)
      && FixVersion(t.fixVersions).Some?
      && (exists st :: st in t.subtasks && IsSignOff(st, t.summary))
      && |siblings| > 0
      && |ArrayDiff(AllPullRequestHashes(t.prUrls, host), SmartCommits(siblings))| == 0
  {
    PrLoopOk(t, host, prHash);
    HeadLinesTransfer(t, siblings, host, prHash);
    NoDisplayHashIff(t.commitField);
    SignOffCountPositive(t.subtasks, t.summary);
    PrLoopCommits(t, host, prHash);
    JudgeClean(t, siblings, DisplayHashes(t.commitField), PrLoop(t, host, prHash));
  }

  lemma JudgeIgnoresNotices(t: Ticket, siblings: seq<Sibling>, display: seq<string>, prs: PrState,
                            hotfix: seq<string>, links: seq<IssueLink>)
    requires Consistent(prs)
    ensures Judge(t.(hotfix := hotfix, links := links), siblings, display, prs).clean == Judge(t, siblings, display, prs).clean
  {
    JudgeClean(t, siblings, display, prs);
    JudgeClean(t.(hotfix := hotfix, links := links), siblings, display, prs);
  }

  /** The pass flag does not depend on the hotfix field or on issue links. */
  lemma FlagIgnoresNotices(t: Ticket, siblings: seq<Sibling>, host: CodeHost, prHash: Option<string>,
                           hotfix: seq<string>, links: seq<IssueLink>)
    ensures Validate(t.(hotfix := hotfix, links := links), siblings, host, prHash).clean ==
            Validate(t, siblings, host, prHash).clean
  {
    var u := t.(hotfix := hotfix, links := links);
    assert PrLoop(u, host, prHash) == PrLoop(t, host, prHash);
    JudgeIgnoresNotices(t, siblings, DisplayHashes(t.commitField), PrLoop(t, host, prHash), hotfix, links);
  }

  lemma {:induction false} SignOffCountIgnoresStatus(a: seq<Subtask>, b: seq<Subtask>, summary: string)
    requires |a| == |b| && forall k :: 0 <= k < |a| ==> a[k].summary == b[k].summary
    ensures SignOffCount(a, summary) == SignOffCount(b, summary)
    decreases |a|
  {
    if |a| > 0 {
      SignOffCountIgnoresStatus(a[1..], b[1..], summary);
    }
  }

  lemma {:induction false} SmartCommitsIgnoreStatus(a: seq<Sibling>, b: seq<Sibling>)
    requires |a| == |b| && forall k :: 0 <= k < |a| ==> a[k].smartCommits == b[k].smartCommits
    ensures SmartCommits(a) == SmartCommits(b)
    decreases |a|
  {
    if |a| > 0 {
      SmartCommitsIgnoreStatus(a[1..], b[1..]);
    }
  }

  lemma JudgeIgnoresStatuses(t: Ticket, siblings: seq<Sibling>, display: seq<string>, prs: PrState,
                             subtasks: seq<Subtask>, others: seq<Sibling>)
    requires Consistent(prs)
    requires |subtasks| == |t.subtasks| && forall k :: 0 <= k < |subtasks| ==> subtasks[k].summary == t.subtasks[k].summary
    requires |others| == |siblings| && forall k :: 0 <= k < |others| ==> others[k].smartCommits == siblings[k].smartCommits
    ensures Judge(t.(subtasks := subtasks), others, display, prs).clean == Judge(t, siblings, display, prs).clean
  {
    SignOffCountIgnoresStatus(subtasks, t.subtasks, t.summary);
    SmartCommitsIgnoreStatus(others, siblings);
    JudgeClean(t, siblings, display, prs);
    JudgeClean(t.(subtasks := subtasks), others, display, prs);
  }

  /** The pass flag does not depend on sub-task statuses or sibling statuses:
      only sub-task summaries and the siblings' recorded commits count. */
  lemma FlagIgnoresStatuses(t: Ticket, siblings: seq<Sibling>, host: CodeHost, prHash: Option<string>,
                            subtasks: seq<Subtask>, others: seq<Sibling>)
    requires |subtasks| == |t.subtasks| && forall k :: 0 <= k < |subtasks| ==> subtasks[k].summary == t.subtasks[k].summary
    requires |others| == |siblings| && forall k :: 0 <= k < |others| ==> others[k].smartCommits == siblings[k].smartCommits
    ensures Validate(t.(subtasks := subtasks), others, host, prHash).clean == Validate(t, siblings, host, prHash).clean
  {
    var u := t.(subtasks := subtasks);
    assert PrLoop(u, host, prHash) == PrLoop(t, host, prHash);
    JudgeIgnoresStatuses(t, siblings, DisplayHashes(t.commitField), PrLoop(t, host, prHash), subtasks, others);
  }

  /** A pull request with exactly one review fails the ticket, whatever the
      review says. */
  lemma {:induction false} SingleReviewInLoop(prs: seq<string>, display: seq<string>, host: CodeHost, st: PrState, pr: string)
    requires pr in prs && |PullRequestReviews(pr, host)| == 1
    ensures FewerThanTwoApprovals(pr) in CheckPullRequests(prs, display, host, st).lines
    decreases |prs|
  {
    var next := CheckPullRequest(prs[0], display, host, st);
    var r := CheckPullRequests(prs[1..], display, host, next);
    if pr == prs[0] {
      var review := ReviewSection(pr, PullRequestReviews(pr, host));
      var k :| 0 <= k < |review.lines| && review.lines[k] == FewerThanTwoApprovals(pr);
      var i := |next.lines| - |review.lines| + k;
      assert next.lines[i] == FewerThanTwoApprovals(pr);
      assert r.lines[..|next.lines|] == next.lines;
      assert r.lines[i] == FewerThanTwoApprovals(pr);
    } else {
      SingleReviewInLoop(prs[1..], display, host, next, pr);
    }
  }

  /** A pull-request line is in the message exactly when the loop over pull
      requests wrote it. */
  lemma JudgePrLines(t: Ticket, siblings: seq<Sibling>, display: seq<string>, prs: PrState, d: Diagnostic)
    requires Consistent(prs) && Origin(d) == 3
    ensures d in Judge(t, siblings, display, prs).lines <==> d in prs.lines
  {
    WrittenByCheck(t, siblings, display, prs, d, 3);
  }

  lemma SingleReviewFails(t: Ticket, siblings: seq<Sibling>, host: CodeHost, prHash: Option<string>, pr: string)
    requires pr in t.prUrls && |PullRequestReviews(pr, host)| == 1
    ensures FewerThanTwoApprovals(pr) in Validate(t, siblings, host, prHash).lines
    ensures !Validate(t, siblings, host, prHash).clean
  {
    SingleReviewInLoop(t.prUrls, DisplayHashes(t.commitField), host, StartState(prHash), pr);
    JudgePrLines(t, siblings, DisplayHashes(t.commitField), PrLoop(t, host, prHash), FewerThanTwoApprovals(pr));
  }

  // ---------------------------------------------------------------- the head commit

  /** The lines one pass of the pull-request loop adds. */
  function Added(pr: string, display: seq<string>, host: CodeHost, st: PrState): seq<Diagnostic> {
    CheckPullRequest(pr, display, host, st).lines[|st.lines|..]
  }

  lemma AddedLines(pr: string, display: seq<string>, host: CodeHost, st: PrState)
    ensures var hs := PullRequestHashes(pr, host);
      Added(pr, display, host, st) ==
        HeadSection(pr, hs, DeclaredHead(hs, display, st.prHash)).lines + ReviewSection(pr, PullRequestReviews(pr, host)).lines
  {
  }

  /** The review check writes only the approval count and review states. */
  lemma ReviewSectionKinds(pr: string, reviews: seq<Review>)
    ensures forall d :: d in ReviewSection(pr, reviews).lines ==> (d.FewerThanTwoApprovals? || d.ReviewState?) && d.pr == pr
  {
    var states := ReviewStateLines(pr, reviews);
    assert forall d :: d in states ==> d.ReviewState?;
  }

  /** `d` is a pull-request line about `pr`. */
  predicate NamesPullRequest(d: Diagnostic, pr: string) {
    match d
    case NotInHashList(p) => p == pr
    case LastCommitIsNot(p, _) => p == pr
    case FewerThanTwoApprovals(p) => p == pr
    case ReviewState(p, _) => p == pr
    case _ => false
  }

  /** One pass of the loop over pull requests, with `h` the `$prHash` its
      commit loop leaves: the flag stays up exactly when it was up, the pull
      request does not have exactly one review, and `h` is unset, falsy or
      the last listed commit. The pull request is reported as not in the
      hash list exactly when `h` is unset, as failing the head check exactly
      when it fails it, and as under-approved exactly when it has one review;
      every added line names the pull request. */
  lemma PullRequestPasses(pr: string, display: seq<string>, host: CodeHost, st: PrState)
    ensures var hs := PullRequestHashes(pr, host);
      var h := DeclaredHead(hs, display, st.prHash);
      var added := Added(pr, display, host, st);
      && (CheckPullRequest(pr, display, host, st).ok <==>
            st.ok && |PullRequestReviews(pr, host)| != 1 && !(h.Some? && Truthy(h.value) && End(hs) != h))
      && (NotInHashList(pr) in added <==> h.None?)
      && (FewerThanTwoApprovals(pr) in added <==> |PullRequestReviews(pr, host)| == 1)
      && (forall x :: LastCommitIsNot(pr, x) in added <==> h == Some(x) && Truthy(x) && End(hs) != h)
      && (forall d :: d in added ==> NamesPullRequest(d, pr))
  {
    var hs := PullRequestHashes(pr, host);
    var h := DeclaredHead(hs, display, st.prHash);
    AddedLines(pr, display, host, st);
    HeadAndReviewLines(pr, hs, h, PullRequestReviews(pr, host));
  }

  /** The lines of the head check and the review check of one pull request. */
  lemma HeadAndReviewLines(pr: string, hs: seq<string>, h: Option<string>, reviews: seq<Review>)
    ensures var head := HeadSection(pr, hs, h).lines;
      var lines := head + ReviewSection(pr, reviews).lines;
      && (NotInHashList(pr) in lines <==> h.None?)
      && (FewerThanTwoApprovals(pr) in lines <==> |reviews| == 1)
      && (forall x :: LastCommitIsNot(pr, x) in lines <==> h == Some(x) && Truthy(x) && End(hs) != h)
      && (forall d :: d in lines ==> NamesPullRequest(d, pr))
  {
    var head := HeadSection(pr, hs, h);
    var review := ReviewSection(pr, reviews);
    ReviewSectionKinds(pr, reviews);
    forall x
      ensures LastCommitIsNot(pr, x) in head.lines <==> h == Some(x) && Truthy(x) && End(hs) != h
    {
      HeadSectionNames(pr, hs, h, x);
    }
    forall d | d in head.lines + review.lines
      ensures NamesPullRequest(d, pr)
    {
      if d !in head.lines {
        assert d in review.lines;
      }
    }
  }

  /** The head check names the stale `$prHash` it finds, and nothing else. */
  lemma HeadSectionNames(pr: string, hs: seq<string>, h: Option<string>, x: string)
    ensures LastCommitIsNot(pr, x) in HeadSection(pr, hs, h).lines <==> h == Some(x) && Truthy(x) && End(hs) != h
  {
  }

  /** The approval line of `pr` is in the loop's lines exactly when it was
      already there or `pr` is one of the candidates and has one review. */
  lemma {:induction false} LoopApprovals(prs: seq<string>, display: seq<string>, host: CodeHost, st: PrState, pr: string)
    ensures FewerThanTwoApprovals(pr) in CheckPullRequests(prs, display, host, st).lines <==>
      FewerThanTwoApprovals(pr) in st.lines || (pr in prs && |PullRequestReviews(pr, host)| == 1)
    decreases |prs|
  {
    if |prs| > 0 {
      var next := CheckPullRequest(prs[0], display, host, st);
      var added := Added(prs[0], display, host, st);
      assert next.lines == st.lines + added;
      PullRequestPasses(prs[0], display, host, st);
      LoopApprovals(prs[1..], display, host, next, pr);
      assert pr in prs <==> pr == prs[0] || pr in prs[1..];
    }
  }

  /** The review check of `pr` reports a state exactly when some review of
      `pr` is in that state and the state is not APPROVED. */
  lemma ReviewSectionStates(pr: string, reviews: seq<Review>, state: string)
    ensures ReviewState(pr, state) in ReviewSection(pr, reviews).lines <==> state != "APPROVED" && Review(state) in reviews
  {
    if state != "APPROVED" && Review(state) in reviews {
      assert Review(state).state == state;
    }
  }

  /** One pass of the loop reports the state of a review of its own pull
      request only. */
  lemma AddedReviewStates(pr0: string, display: seq<string>, host: CodeHost, st: PrState, pr: string, state: string)
    ensures ReviewState(pr, state) in Added(pr0, display, host, st) <==>
      pr == pr0 && state != "APPROVED" && Review(state) in PullRequestReviews(pr0, host)
  {
    var hs := PullRequestHashes(pr0, host);
    var head := HeadSection(pr0, hs, DeclaredHead(hs, display, st.prHash)).lines;
    var review := ReviewSection(pr0, PullRequestReviews(pr0, host)).lines;
    AddedLines(pr0, display, host, st);
    assert ReviewState(pr, state) !in head;
    ReviewSectionStates(pr0, PullRequestReviews(pr0, host), state);
    assert ReviewState(pr, state) in head + review <==> ReviewState(pr, state) in review;
  }

  /** A review-state line is in the loop's lines exactly when it was already
      there, or `pr` is a candidate with a review in that state and the
      state is not APPROVED. */
  lemma {:induction false} LoopReviewStates(prs: seq<string>, display: seq<string>, host: CodeHost, st: PrState, pr: string, state: string)
    ensures ReviewState(pr, state) in CheckPullRequests(prs, display, host, st).lines <==>
      || ReviewState(pr, state) in st.lines
      || (pr in prs && state != "APPROVED" && Review(state) in PullRequestReviews(pr, host))
    decreases |prs|
  {
    if |prs| > 0 {
      var next := CheckPullRequest(prs[0], display, host, st);
      var added := Added(prs[0], display, host, st);
      assert next.lines == st.lines + added;
      AddedReviewStates(prs[0], display, host, st, pr, state);
      LoopReviewStates(prs[1..], display, host, next, pr, state);
      assert pr in prs <==> pr == prs[0] || pr in prs[1..];
    }
  }

  /** In the message, a review state is reported for a pull request exactly
      when it is a candidate of the ticket with a review in that state, and
      the state is not APPROVED. */
  lemma ReviewStatesReported(t: Ticket, siblings: seq<Sibling>, host: CodeHost, prHash: Option<string>, pr: string, state: string)
    ensures ReviewState(pr, state) in Validate(t, siblings, host, prHash).lines <==>
      pr in t.prUrls && state != "APPROVED" && Review(state) in PullRequestReviews(pr, host)
  {
    LoopReviewStates(t.prUrls, DisplayHashes(t.commitField), host, StartState(prHash), pr, state);
    JudgePrLines(t, siblings, DisplayHashes(t.commitField), PrLoop(t, host, prHash), ReviewState(pr, state));
  }

  /** The pull-request loop of a ticket keeps the flag up exactly when no
      candidate has exactly one review and no head-commit line was written. */
  lemma PrLoopOk(t: Ticket, host: CodeHost, prHash: Option<string>)
    ensures PrLoop(t, host, prHash).ok <==>
      && (forall pr :: pr in t.prUrls ==> |PullRequestReviews(pr, host)| != 1)
      && (forall d :: d in PrLoop(t, host, prHash).lines ==> !d.LastCommitIsNot?)
  {
    var prs := PrLoop(t, host, prHash);
    var display := DisplayHashes(t.commitField);
    forall pr | pr in t.prUrls
      ensures FewerThanTwoApprovals(pr) in prs.lines <==> |PullRequestReviews(pr, host)| == 1
    {
      LoopApprovals(t.prUrls, display, host, StartState(prHash), pr);
    }
    forall d | d in prs.lines && d.FewerThanTwoApprovals?
      ensures d.pr in t.prUrls && |PullRequestReviews(d.pr, host)| == 1
    {
      LoopApprovals(t.prUrls, display, host, StartState(prHash), d.pr);
    }
    assert forall d :: d in prs.lines ==> (Fails(d) <==> d.LastCommitIsNot? || d.FewerThanTwoApprovals?);
  }

  /** A head-commit line is in the message exactly when the loop wrote it. */
  lemma HeadLinesTransfer(t: Ticket, siblings: seq<Sibling>, host: CodeHost, prHash: Option<string>)
    ensures (forall d :: d in Validate(t, siblings, host, prHash).lines ==> !d.LastCommitIsNot?) <==>
            (forall d :: d in PrLoop(t, host, prHash).lines ==> !d.LastCommitIsNot?)
  {
    forall d: Diagnostic | d.LastCommitIsNot?
      ensures d in Validate(t, siblings, host, prHash).lines <==> d in PrLoop(t, host, prHash).lines
    {
      JudgePrLines(t, siblings, DisplayHashes(t.commitField), PrLoop(t, host, prHash), d);
    }
  }

  /** A pull request whose last commit is declared in the ticket passes the
      head check, whatever `$prHash` held before, and leaves that commit in
      `$prHash`. */
  lemma DeclaredHeadPasses(pr: string, display: seq<string>, host: CodeHost, st: PrState)
    requires var hs := PullRequestHashes(pr, host); |hs| > 0 && hs[|hs| - 1] in display
    ensures forall d :: d in Added(pr, display, host, st) ==> !d.LastCommitIsNot? && !d.NotInHashList?
    ensures CheckPullRequest(pr, display, host, st).prHash == End(PullRequestHashes(pr, host))
  {
    var hs := PullRequestHashes(pr, host);
    var head := DeclaredHead(hs, display, st.prHash);
    assert head == Some(hs[|hs| - 1]) == End(hs);
    PullRequestPasses(pr, display, host, st);
    forall d | d in Added(pr, display, host, st)
      ensures !d.LastCommitIsNot? && !d.NotInHashList?
    {
      assert NamesPullRequest(d, pr);
    }
  }

  /** When an earlier commit is declared but the last one is not, the pull
      request fails: its last commit is not the declared one. */
  lemma UndeclaredHeadFails(pr: string, display: seq<string>, host: CodeHost, st: PrState, k: nat)
    requires forall h :: h in display ==> Truthy(h)
    requires var hs := PullRequestHashes(pr, host);
      && k < |hs| - 1 && hs[k] in display
      && forall j :: k < j < |hs| ==> hs[j] !in display
    ensures LastCommitIsNot(pr, PullRequestHashes(pr, host)[k]) in Added(pr, display, host, st)
    ensures !CheckPullRequest(pr, display, host, st).ok
  {
    var hs := PullRequestHashes(pr, host);
    assert DeclaredHead(hs, display, st.prHash) == Some(hs[k]);
    assert End(hs) == Some(hs[|hs| - 1]);
    AddedLines(pr, display, host, st);
  }

  /** A pull request none of whose commits is declared is judged against the
      hash an earlier pull request (or ticket) left in `$prHash`; only when
      there is none is it merely reported as not in the hash list. */
  lemma UndeclaredPullRequest(pr: string, display: seq<string>, host: CodeHost, st: PrState)
    requires var hs := PullRequestHashes(pr, host); forall k :: 0 <= k < |hs| ==> hs[k] !in display
    ensures CheckPullRequest(pr, display, host, st).prHash == st.prHash
    ensures NotInHashList(pr) in Added(pr, display, host, st) <==> st.prHash.None?
    ensures st.prHash.None? ==>
      (CheckPullRequest(pr, display, host, st).ok <==> st.ok && |PullRequestReviews(pr, host)| != 1)
    ensures st.prHash.Some? ==>
      (LastCommitIsNot(pr, st.prHash.value) in Added(pr, display, host, st) <==>
         Truthy(st.prHash.value) && End(PullRequestHashes(pr, host)) != st.prHash)
  {
    PullRequestPasses(pr, display, host, st);
  }

  /** Display hashes are never "" or "0", so every declared head is checked. */
  lemma DisplayHashesTruthy(s: string)
    ensures forall h :: h in DisplayHashes(s) ==> Truthy(h)
  {
    DisplayHashShape(s);
    forall h | h in DisplayHashes(s)
      ensures Truthy(h)
    {
      var k :| 0 <= k < |DisplayHashes(s)| && DisplayHashes(s)[k] == h;
    }
  }

  // ---------------------------------------------------------------- `$prHash` is never reset

  predicate NoUnlistedHead(ds: seq<Diagnostic>) {
    forall d :: d in ds ==> !d.NotInHashList?
  }

  lemma {:induction false} StickyInLoop(prs: seq<string>, display: seq<string>, host: CodeHost, st: PrState)
    requires st.prHash.Some? && NoUnlistedHead(st.lines)
    ensures NoUnlistedHead(CheckPullRequests(prs, display, host, st).lines)
    decreases |prs|
  {
    if |prs| > 0 {
      var hs := PullRequestHashes(prs[0], host);
      var next := CheckPullRequest(prs[0], display, host, st);
      var review := ReviewSection(prs[0], PullRequestReviews(prs[0], host));
      assert next.lines == st.lines + HeadSection(prs[0], hs, next.prHash).lines + review.lines;
      StickyInLoop(prs[1..], display, host, next);
    }
  }

  /** Once a ticket starts with `$prHash` set, it never reports a pull request
      as not in the hash list. */
  lemma StickyInTicket(t: Ticket, siblings: seq<Sibling>, host: CodeHost, prHash: Option<string>)
    requires prHash.Some?
    ensures NoUnlistedHead(Validate(t, siblings, host, prHash).lines)
  {
    var prs := PrLoop(t, host, prHash);
    StickyInLoop(t.prUrls, DisplayHashes(t.commitField), host, StartState(prHash));
    forall d: Diagnostic | d.NotInHashList?
      ensures d !in Validate(t, siblings, host, prHash).lines
    {
      JudgePrLines(t, siblings, DisplayHashes(t.commitField), prs, d);
    }
  }

  /** Verdicts after one that holds `$prHash` report no unlisted head. */
  predicate StickyFrom(vs: seq<Verdict>, prHash: Option<string>) {
    && (prHash.Some? ==> forall k :: 0 <= k < |vs| ==> NoUnlistedHead(vs[k].lines))
    && (forall j, k :: 0 <= j < k < |vs| && vs[j].prHash.Some? ==> NoUnlistedHead(vs[k].lines))
  }

  lemma StickyStep(v: Verdict, rest: seq<Verdict>, prHash: Option<string>)
    requires prHash.Some? ==> NoUnlistedHead(v.lines) && v.prHash.Some?
    requires StickyFrom(rest, v.prHash)
    ensures StickyFrom([v] + rest, prHash)
  {
    var vs := [v] + rest;
    forall j, k | 0 <= j < k < |vs| && vs[j].prHash.Some?
      ensures NoUnlistedHead(vs[k].lines)
    {
      assert vs[k] == rest[k - 1];
      if j > 0 {
        assert vs[j] == rest[j - 1];
      }
    }
    if prHash.Some? {
      forall k | 0 <= k < |vs|
        ensures NoUnlistedHead(vs[k].lines)
      {
        if k > 0 {
          assert vs[k] == rest[k - 1];
        }
      }
    }
  }

  /** After the first ticket that sets `$prHash`, no later ticket reports a
      pull request as not in the hash list. */
  lemma {:induction false} StickyAcrossTickets(rs: seq<ReleaseInput>, host: CodeHost, prHash: Option<string>)
    ensures prHash.Some? ==> forall k :: 0 <= k < |rs| ==> NoUnlistedHead(ValidateAll(rs, host, prHash)[k].lines)
    ensures forall j, k :: 0 <= j < k < |rs| && ValidateAll(rs, host, prHash)[j].prHash.Some? ==>
      NoUnlistedHead(ValidateAll(rs, host, prHash)[k].lines)
    decreases |rs|
  {
    if |rs| > 0 {
      var v := Validate(rs[0].ticket, rs[0].siblings, host, prHash);
      var rest := ValidateAll(rs[1..], host, v.prHash);
      assert ValidateAll(rs, host, prHash) == [v] + rest;
      StickyAcrossTickets(rs[1..], host, v.prHash);
      if prHash.Some? {
        StickyInTicket(rs[0].ticket, rs[0].siblings, host, prHash);
      }
      StickyStep(v, rest, prHash);
    }
  }

  // ---------------------------------------------------------------- the message text

  lemma {:induction false} TextAppend(a: seq<Diagnostic>, b: seq<Diagnostic>)
    ensures Text(a + b) == Text(a) + Text(b)
    decreases |a|
  {
    if |a| == 0 {
      assert a + b == b;
    } else {
      assert (a + b)[0] == a[0];
      assert (a + b)[1..] == a[1..] + b;
      TextAppend(a[1..], b);
    }
  }

  /** The message is never empty, so the source's "message is not empty"
      guard never withholds the check mark, and a passing ticket's message
      ends with it. */
  lemma MessageText(t: Ticket, siblings: seq<Sibling>, host: CodeHost, prHash: Option<string>)
    ensures Text(Validate(t, siblings, host, prHash).lines) != ""
    ensures Validate(t, siblings, host, prHash).clean ==>
      exists pre :: Text(Validate(t, siblings, host, prHash).lines) == pre + Render(Success)
  {
    var lines := Validate(t, siblings, host, prHash).lines;
    TextEmptyIff(lines);
    if Validate(t, siblings, host, prHash).clean {
      var body := lines[..|lines| - 1];
      assert lines == body + [Success];
      TextAppend(body, [Success]);
      assert Text([Success]) == Render(Success) + Text([]);
      assert Text(lines) == Text(body) + Render(Success);
    }
  }
}

=== FILE: release.dfy ===
/** The records the release validator reads, already decoded from Jira's and
    GitHub's JSON, and the diagnostic lines it writes into the Slack
    message, tagged by kind. */
module Release {
  import opened Php

  /** One entry of a pull request's commit list. */
  datatype Commit = Commit(sha: string, message: string)

  /** One review of a pull request; `state` is GitHub's review state. */
  datatype Review = Review(state: string)

  /** The issue at the far end of an issue link. */
  datatype LinkedIssue = LinkedIssue(key: string, status: string)

  /** One `issuelinks` entry: the inward wording of its link type and the
      inward issue, which not every link has. */
  datatype IssueLink = IssueLink(inward: string, inwardIssue: Option<LinkedIssue>)

  /** A sub-task of the release ticket; `status` is the status name. */
  datatype Subtask = Subtask(key: string, summary: string, status: string)

  /** An issue of the same project and fix version, with its status id and
      the commit display ids Jira's GitHub integration recorded for it. */
  datatype Sibling = Sibling(key: string, statusId: string, smartCommits: seq<string>)

  /** A release ticket as the Jira search returns it.
      `hotfix` is custom field 12901, `commitField` custom field 13432, and
      `prUrls` the URL candidates the source's URL pattern finds in that
      field (in order); `fixVersions` are the fix-version names. */
  datatype Ticket = Ticket(
    key: string,
    summary: string,
    hotfix: seq<string>,
    links: seq<IssueLink>,
    commitField: string,
    prUrls: seq<string>,
    fixVersions: seq<string>,
    subtasks: seq<Subtask>)

  /** GitHub's answers by request URL. A URL that is absent stands for a
      failed request or an answer that is not a JSON array. */
  datatype CodeHost = CodeHost(commits: map<string, seq<Commit>>, reviews: map<string, seq<Review>>)

  /** One piece of the Slack message. */
  datatype Diagnostic =
    | Header(summary: string, key: string)
    | Hotfix
    | BlockedBy(blocker: string, status: string)
    | HashMissing
    | PullRequestMissing
    | NotInHashList(pr: string)
    | LastCommitIsNot(pr: string, hash: string)
    | FewerThanTwoApprovals(pr: string)
    | ReviewState(pr: string, state: string)
    | FixVersionMissing
    | OpenSubtask(subtask: string, title: string, status: string)
    | NoSecurityTasks
    | NoAssociatedIssues
    | NotTerminal(issue: string)
    | DiffHeader
    | DiffEntry(hash: string, message: string)
    | Success

  /** The kinds of line that clear the pass flag when written. The others
      (hotfix, blockers, "not in the hash list", review states, open
      sub-tasks, non-terminal issues) are reported without failing. */
  predicate Fails(d: Diagnostic) {
    || d.HashMissing?
    || d.PullRequestMissing?
    || d.LastCommitIsNot?
    || d.FewerThanTwoApprovals?
    || d.FixVersionMissing?
    || d.NoSecurityTasks?
    || d.NoAssociatedIssues?
    || d.DiffHeader?
    || d.DiffEntry?
  }

  const Browse := "https://doorbot.atlassian.net/browse/"

  /** The break and indent that open most reported lines. */
  const Item := "\n\t\t"

  /** The exact text each line adds to `$msg`; every line adds some. */
  function Render(d: Diagnostic): (r: string)
    ensures |r| > 0
  {
    match d
    case Header(summary, key) => "*" + summary + "* " + Browse + key
    case Hotfix => " " + "`HOTFIX`"
    case BlockedBy(blocker, status) => Item + "Blocked By: " + Browse + blocker + " `" + status + "`"
    case HashMissing => "\n\t" + "`Hash Missing.`"
    case PullRequestMissing => Item + "`Pull Request Missing.`"
    case NotInHashList(pr) => Item + pr + "` last Commit is not in the hash list provided in the release ticket`"
    case LastCommitIsNot(pr, hash) => Item + pr + "` last Commit is not " + hash + "`"
    case FewerThanTwoApprovals(pr) => Item + pr + " `has less than 2 approvals`"
    case ReviewState(pr, state) => Item + pr + " `" + state + "`"
    case FixVersionMissing => Item + "`FixVersion Missing.`"
    case OpenSubtask(subtask, title, status) => Item + "[" + subtask + "] " + title + " - `" + status + "`"
    case NoSecurityTasks => Item + "`No security tasks found.`"
    case NoAssociatedIssues => Item + "`No issues associated with the release.`"
    case NotTerminal(issue) => " " + Item + "`[" + issue + "]` Not in RELEASABLE|RESOLVED|CLOSED status"
    case DiffHeader => "\n" + Item + "*Commits existing on PR but not in Jira:*\n"
    case DiffEntry(hash, message) => "\t\t`" + hash + "` " + message + "\n"
    case Success => "\t" + ":white_check_mark:"
  }

  /** `$msg`: the lines' texts, in order. */
  function Text(ds: seq<Diagnostic>): string
    decreases |ds|
  {
    if |ds| == 0 then "" else Render(ds[0]) + Text(ds[1..])
  }

  /** Every line but the header opens with a space, a tab or a line break,
      so no line runs into the text written before it. */
  lemma RenderOpensWithSpace(d: Diagnostic)
    requires !d.Header?
    ensures Render(d)[0] in " \t\n"
  {
  }

  /** Every line has text, so the message is empty only when no line was written. */
  lemma {:induction false} TextEmptyIff(ds: seq<Diagnostic>)
    ensures Text(ds) == "" <==> |ds| == 0
  {
    if |ds| > 0 {
      assert |Render(ds[0])| > 0;
    }
  }
}

=== FILE: validator.dfy ===
/** The release-validation rule engine: the body of the per-ticket loop
    (ReleaseBot.php, lines 33-232) as a pure function from a release
    ticket, the issues sharing its fix version and GitHub's answers to the
    diagnostic lines of the Slack message and the pass flag
    (`$squeekyClean`). `$prHash`, which the source never resets, not even
    between tickets, is threaded through explicitly. */
module Validator {
  import opened Php
  import opened Hashes
  import opened ApiUrl
  import opened Release

  /** Status ids of Releasable, Resolved and Closed. */
  const TerminalStatusIds: seq<string> := ["14601", "6", "5"]
  /** Status names that end a blocker's hold. */
  const ClearedBlockerStatuses: seq<string> := ["Closed", "In Production"]
  const SecurityPrefix := "Get Security Sign Off - "
  const MessageLimit: nat := 100

  /** The lines one check writes and whether it left the pass flag standing. */
  datatype Section = Section(lines: seq<Diagnostic>, ok: bool)

  /** No line of `ds` clears the pass flag. */
  predicate Passes(ds: seq<Diagnostic>) {
    forall d :: d in ds ==> !Fails(d)
  }

  /** A check clears the flag exactly when it writes a failing line. */
  predicate Agrees(s: Section) {
    s.ok <==> Passes(s.lines)
  }

  /** The check that writes a line, as its position in the message:
      notices, hashes, pull-request presence, pull requests, fix version,
      sub-tasks, sibling issues, commit reconciliation; the success mark
      comes after all of them. */
  function Origin(d: Diagnostic): nat {
    match d
    case Header(_, _) => 0
    case Hotfix => 0
    case BlockedBy(_, _) => 0
    case HashMissing => 1
    case PullRequestMissing => 2
    case NotInHashList(_) => 3
    case LastCommitIsNot(_, _) => 3
    case FewerThanTwoApprovals(_) => 3
    case ReviewState(_, _) => 3
    case FixVersionMissing => 4
    case OpenSubtask(_, _, _) => 5
    case NoSecurityTasks => 5
    case NoAssociatedIssues => 6
    case NotTerminal(_) => 6
    case DiffHeader => 7
    case DiffEntry(_, _) => 7
    case Success => 8
  }

  /** Every line of `s` comes from check number `i`. */
  predicate WrittenBy(s: Section, i: nat) {
    forall d :: d in s.lines ==> Origin(d) == i
  }

  // ---------------------------------------------------------------- hotfix and blockers

  function HotfixLines(hotfix: seq<string>): seq<Diagnostic> {
    if |hotfix| > 0 then [Hotfix] else []
  }

  /** A link is reported when it reads "is blocked by", has an inward issue,
      and that issue's status is neither Closed nor In Production. */
  predicate Blocking(l: IssueLink) {
    l.inward == "is blocked by" && l.inwardIssue.Some? && l.inwardIssue.value.status !in ClearedBlockerStatuses
  }

  function BlockedLine(l: IssueLink): Diagnostic
    requires l.inwardIssue.Some?
  {
    BlockedBy(l.inwardIssue.value.key, l.inwardIssue.value.status)
  }

  function BlockerLines(links: seq<IssueLink>): (ds: seq<Diagnostic>)
    ensures forall l :: l in links && Blocking(l) ==> BlockedLine(l) in ds
    ensures forall d :: d in ds ==> exists l :: l in links && Blocking(l) && d == BlockedLine(l)
    ensures forall d :: d in ds ==> d.BlockedBy?
    decreases |links|
  {
    if |links| == 0 then []
    else
      var rest := BlockerLines(links[1..]);
      assert forall l :: l in links <==> l == links[0] || l in links[1..];
      (if Blocking(links[0]) then [BlockedLine(links[0])] else []) + rest
  }

  // ---------------------------------------------------------------- hashes and pull requests

  function HashSection(display: seq<string>): (s: Section)
    ensures HashMissing in s.lines <==> |display| == 0
  {
    if |display| < 1 then Section([HashMissing], false) else Section([], true)
  }

  function PullRequestSection(prUrls: seq<string>): (s: Section)
    ensures PullRequestMissing in s.lines <==> |prUrls| == 0
  {
    if |prUrls| < 1 then Section([PullRequestMissing], false) else Section([], true)
  }

  /** `substr($c->sha, 0, 7)`. */
  function ShortHash(c: Commit): string {
    Prefix(c.sha, DisplayLength)
  }

  function ShortHashes(cs: seq<Commit>): seq<string> {
    seq(|cs|, k requires 0 <= k < |cs| => ShortHash(cs[k]))
  }

  /** The cached commit message: its first 100 characters, with line breaks removed. */
  function CleanMessage(m: string): (r: string)
    ensures |r| <= MessageLimit && '\n' !in r
  {
    Replace(Prefix(m, MessageLimit), "\n", "", false)
  }

  predicate CleanCache(messages: map<string, string>) {
    forall h :: h in messages ==> |messages[h]| <= MessageLimit && '\n' !in messages[h]
  }

  /** `$commitMsgs` after one pull request's commits: each commit's short
      hash is (re)written with its cleaned message, in list order. */
  function CacheMessages(messages: map<string, string>, cs: seq<Commit>): (r: map<string, string>)
    ensures messages.Keys <= r.Keys
    ensures forall c :: c in cs ==> ShortHash(c) in r
    ensures CleanCache(messages) ==> CleanCache(r)
    decreases |cs|
  {
    if |cs| == 0 then messages
    else
      assert forall c :: c in cs ==> c == cs[0] || c in cs[1..];
      CacheMessages(messages[ShortHash(cs[0]) := CleanMessage(cs[0].message)], cs[1..])
  }

  /** A short hash that no commit of the list has keeps its cached message. */
  lemma {:induction false} CacheLeavesOthers(messages: map<string, string>, cs: seq<Commit>, h: string)
    requires forall c :: c in cs ==> ShortHash(c) != h
    ensures h in CacheMessages(messages, cs) <==> h in messages
    ensures h in messages ==> CacheMessages(messages, cs)[h] == messages[h]
    decreases |cs|
  {
    if |cs| > 0 {
      assert forall c :: c in cs[1..] ==> c in cs;
      CacheLeavesOthers(messages[ShortHash(cs[0]) := CleanMessage(cs[0].message)], cs[1..], h);
    }
  }

  /** The last commit with a given short hash decides its cached message. */
  lemma {:induction false} CacheKeepsLast(messages: map<string, string>, cs: seq<Commit>, k: nat)
    requires k < |cs|
    requires forall j :: k < j < |cs| ==> ShortHash(cs[j]) != ShortHash(cs[k])
    ensures CacheMessages(messages, cs)[ShortHash(cs[k])] == CleanMessage(cs[k].message)
    decreases |cs|
  {
    var next := messages[ShortHash(cs[0]) := CleanMessage(cs[0].message)];
    if k == 0 {
      forall c | c in cs[1..]
        ensures ShortHash(c) != ShortHash(cs[0])
      {
        var j :| 0 <= j < |cs[1..]| && cs[1..][j] == c;
        assert cs[j + 1] == c;
      }
      CacheLeavesOthers(next, cs[1..], ShortHash(cs[0]));
    } else {
      assert cs[k] == cs[1..][k - 1];
      forall j | k - 1 < j < |cs[1..]|
        ensures ShortHash(cs[1..][j]) != ShortHash(cs[1..][k - 1])
      {
        assert cs[1..][j] == cs[j + 1];
      }
      CacheKeepsLast(next, cs[1..], k - 1);
    }
  }

  /** `$prHash` after the commit loop: the last listed hash that the ticket
      declares, or the previous value when none of them is declared. */
  function DeclaredHead(hs: seq<string>, display: seq<string>, prev: Option<string>): (r: Option<string>)
    ensures (forall k :: 0 <= k < |hs| ==> hs[k] !in display) ==> r == prev
    ensures forall k :: 0 <= k < |hs| && hs[k] in display && (forall j :: k < j < |hs| ==> hs[j] !in display) ==> r == Some(hs[k])
    ensures r == prev || (r.Some? && r.value in hs && r.value in display)
    decreases |hs|
  {
    if |hs| == 0 then prev
    else
      var r := DeclaredHead(hs[1..], display, if hs[0] in display then Some(hs[0]) else prev);
      assert forall k :: 1 <= k < |hs| ==> hs[k] == hs[1..][k - 1];
      r
  }

  /** The head-commit check after the loop over a pull request's commits.
      With no `$prHash` yet the pull request is only reported; with a truthy
      `$prHash` that is not the last listed commit it fails; otherwise it is
      silent. */
  function HeadSection(pr: string, hs: seq<string>, prHash: Option<string>): (s: Section)
    ensures s.ok <==> !(prHash.Some? && Truthy(prHash.value) && End(hs) != prHash)
    ensures NotInHashList(pr) in s.lines <==> prHash.None?
    ensures prHash.Some? ==> (LastCommitIsNot(pr, prHash.value) in s.lines <==> !s.ok)
    ensures |s.lines| <= 1 && forall d :: d in s.lines ==> (d.NotInHashList? || d.LastCommitIsNot?) && d.pr == pr
  {
    match prHash
    case None => Section([NotInHashList(pr)], true)
    case Some(h) =>
      if Truthy(h) && End(hs) != prHash then Section([LastCommitIsNot(pr, h)], false)
      else Section([], true)
  }

  /** One line per review whose state is not APPROVED. */
  function ReviewStateLines(pr: string, reviews: seq<Review>): (ds: seq<Diagnostic>)
    ensures forall rw :: rw in reviews && rw.state != "APPROVED" ==> ReviewState(pr, rw.state) in ds
    ensures forall d :: d in ds ==> d.ReviewState? && d.pr == pr && d.state != "APPROVED" && Review(d.state) in reviews
    decreases |reviews|
  {
    if |reviews| == 0 then []
    else
      var rest := ReviewStateLines(pr, reviews[1..]);
      assert forall rw :: rw in reviews <==> rw == reviews[0] || rw in reviews[1..];
      (if reviews[0].state != "APPROVED" then [ReviewState(pr, reviews[0].state)] else []) + rest
  }

  /** The review check; an empty list (or a failed request) writes nothing.
      Only the number of reviews decides: a single review fails, whatever its
      state, and two or more pass, whatever theirs. */
  function ReviewSection(pr: string, reviews: seq<Review>): (s: Section)
    ensures s.ok <==> |reviews| != 1
    ensures FewerThanTwoApprovals(pr) in s.lines <==> |reviews| == 1
    ensures forall rw :: rw in reviews && rw.state != "APPROVED" ==> ReviewState(pr, rw.state) in s.lines
    ensures forall d :: d in s.lines && d.ReviewState? ==> d.pr == pr && d.state != "APPROVED" && Review(d.state) in reviews
    ensures |reviews| == 0 ==> s.lines == []
  {
    if |reviews| > 0 then
      Section((if |reviews| < 2 then [FewerThanTwoApprovals(pr)] else []) + ReviewStateLines(pr, reviews), |reviews| >= 2)
    else
      Section([], true)
  }

  function CommitsAt(host: CodeHost, url: string): seq<Commit> {
    if url in host.commits then host.commits[url] else []
  }

  function ReviewsAt(host: CodeHost, url: string): seq<Review> {
    if url in host.reviews then host.reviews[url] else []
  }

  /** The commits of pull request `pr`, as GitHub lists them. */
  function PullRequestCommits(pr: string, host: CodeHost): seq<Commit> {
    CommitsAt(host, ApiPath(pr) + "/commits")
  }

  function PullRequestHashes(pr: string, host: CodeHost): seq<string> {
    ShortHashes(PullRequestCommits(pr, host))
  }

  function PullRequestReviews(pr: string, host: CodeHost): seq<Review> {
    ReviewsAt(host, ApiPath(pr) + "/reviews")
  }

  /** What the loop over pull requests accumulates. */
  datatype PrState = PrState(
    lines: seq<Diagnostic>,
    ok: bool,
    prHash: Option<string>,
    prCommits: seq<string>,
    messages: map<string, string>)

  /** The flag agrees with the lines, only pull-request lines are written,
      and every collected commit has a clean cached message. */
  predicate Consistent(st: PrState) {
    && (st.ok <==> Passes(st.lines))
    && (forall d :: d in st.lines ==> Origin(d) == 3)
    && (forall h :: h in st.prCommits ==> h in st.messages)
    && CleanCache(st.messages)
  }

  /** One pass of the loop over pull-request candidates. */
  function CheckPullRequest(pr: string, display: seq<string>, host: CodeHost, st: PrState): (r: PrState)
    ensures |st.lines| <= |r.lines| && r.lines[..|st.lines|] == st.lines
    ensures st.prHash.Some? ==> r.prHash.Some?
  {
    var cs := PullRequestCommits(pr, host);
    var hs := PullRequestHashes(pr, host);
    var prHash := DeclaredHead(hs, display, st.prHash);
    var head := HeadSection(pr, hs, prHash);
    var review := ReviewSection(pr, PullRequestReviews(pr, host));
    PrState(st.lines + head.lines + review.lines, st.ok && head.ok && review.ok, prHash, st.prCommits + hs,
            CacheMessages(st.messages, cs))
  }

  lemma PassesAppend(a: seq<Diagnostic>, b: seq<Diagnostic>)
    ensures Passes(a + b) <==> Passes(a) && Passes(b)
  {
    assert forall d :: d in a + b <==> d in a || d in b;
  }

  lemma HeadSectionAgrees(pr: string, hs: seq<string>, prHash: Option<string>)
    ensures Agrees(HeadSection(pr, hs, prHash)) && WrittenBy(HeadSection(pr, hs, prHash), 3)
  {
    var head := HeadSection(pr, hs, prHash);
    if !head.ok {
      assert head.lines[0] in head.lines;
    }
  }

  lemma ReviewSectionAgrees(pr: string, reviews: seq<Review>)
    ensures Agrees(ReviewSection(pr, reviews)) && WrittenBy(ReviewSection(pr, reviews), 3)
  {
    var states := ReviewStateLines(pr, reviews);
    assert Passes(states);
    PassesAppend(if |reviews| < 2 then [FewerThanTwoApprovals(pr)] else [], states);
  }

  lemma CheckPullRequestConsistent(pr: string, display: seq<string>, host: CodeHost, st: PrState)
    requires Consistent(st)
    ensures Consistent(CheckPullRequest(pr, display, host, st))
  {
    var cs := PullRequestCommits(pr, host);
    var hs := PullRequestHashes(pr, host);
    var head := HeadSection(pr, hs, DeclaredHead(hs, display, st.prHash));
    var review := ReviewSection(pr, PullRequestReviews(pr, host));
    ReviewSectionAgrees(pr, PullRequestReviews(pr, host));
    HeadSectionAgrees(pr, hs, DeclaredHead(hs, display, st.prHash));
    var r := CheckPullRequest(pr, display, host, st);
    assert r.lines == st.lines + head.lines + review.lines;
    PassesAppend(st.lines, head.lines);
    PassesAppend(st.lines + head.lines, review.lines);
    forall h | h in r.prCommits
      ensures h in r.messages
    {
      if h !in st.prCommits {
        var k :| 0 <= k < |hs| && hs[k] == h;
        assert cs[k] in cs;
      }
    }
  }

  /** The whole loop over pull-request candidates. */
  function CheckPullRequests(prs: seq<string>, display: seq<string>, host: CodeHost, st: PrState): (r: PrState)
    ensures |st.lines| <= |r.lines| && r.lines[..|st.lines|] == st.lines
    ensures st.prHash.Some? ==> r.prHash.Some?
    decreases |prs|
  {
    if |prs| == 0 then st
    else CheckPullRequests(prs[1..], display, host, CheckPullRequest(prs[0], display, host, st))
  }

  lemma {:induction false} CheckPullRequestsConsistent(prs: seq<string>, display: seq<string>, host: CodeHost, st: PrState)
    requires Consistent(st)
    ensures Consistent(CheckPullRequests(prs, display, host, st))
    decreases |prs|
  {
    if |prs| > 0 {
      CheckPullRequestConsistent(prs[0], display, host, st);
      CheckPullRequestsConsistent(prs[1..], display, host, CheckPullRequest(prs[0], display, host, st));
    }
  }

  // ---------------------------------------------------------------- fix version, security, siblings

  /** `$r->fields->fixVersions[0]->name`, or none when it is missing or falsy. */
  function FixVersion(names: seq<string>): Option<string> {
    if |names| > 0 && Truthy(names[0]) then Some(names[0]) else None
  }

  function FixVersionSection(names: seq<string>): (s: Section)
    ensures FixVersionMissing in s.lines <==> FixVersion(names).None?
  {
    if FixVersion(names).None? then Section([FixVersionMissing], false) else Section([], true)
  }

  /** A sub-task that signs the release off: its summary, trimmed, is
      "Get Security Sign Off - " and the release summary, trimmed. */
  predicate IsSignOff(st: Subtask, summary: string) {
    Trim(st.summary) == Trim(SecurityPrefix + summary)
  }

  /** `$securitySubtasks`: how many sub-tasks sign the release off. */
  function SignOffCount(subtasks: seq<Subtask>, summary: string): (n: nat)
    ensures n <= |subtasks|
    decreases |subtasks|
  {
    if |subtasks| == 0 then 0
    else (if IsSignOff(subtasks[0], summary) then 1 else 0) + SignOffCount(subtasks[1..], summary)
  }

  /** The count is positive exactly when some sub-task signs off. */
  lemma {:induction false} SignOffCountPositive(subtasks: seq<Subtask>, summary: string)
    ensures SignOffCount(subtasks, summary) > 0 <==> exists st :: st in subtasks && IsSignOff(st, summary)
    decreases |subtasks|
  {
    if |subtasks| > 0 {
      SignOffCountPositive(subtasks[1..], summary);
      assert forall st :: st in subtasks <==> st == subtasks[0] || st in subtasks[1..];
    }
  }

  function OpenSubtaskLine(st: Subtask): Diagnostic {
    OpenSubtask(st.key, st.summary, st.status)
  }

  /** One line per sub-task that is not Closed. */
  function OpenSubtaskLines(subtasks: seq<Subtask>): (ds: seq<Diagnostic>)
    ensures forall st :: st in subtasks && st.status != "Closed" ==> OpenSubtaskLine(st) in ds
    ensures forall d :: d in ds ==> exists st :: st in subtasks && st.status != "Closed" && d == OpenSubtaskLine(st)
    ensures forall d :: d in ds ==> d.OpenSubtask?
    decreases |subtasks|
  {
    if |subtasks| == 0 then []
    else
      var rest := OpenSubtaskLines(subtasks[1..]);
      assert forall st :: st in subtasks <==> st == subtasks[0] || st in subtasks[1..];
      (if subtasks[0].status != "Closed" then [OpenSubtaskLine(subtasks[0])] else []) + rest
  }

  function SecuritySection(subtasks: seq<Subtask>, summary: string): (s: Section)
    ensures s.ok <==> SignOffCount(subtasks, summary) > 0
    ensures NoSecurityTasks in s.lines <==> !s.ok
  {
    var open := OpenSubtaskLines(subtasks);
    assert NoSecurityTasks !in open;
    var n := SignOffCount(subtasks, summary);
    Section(OpenSubtaskLines(subtasks) + (if n < 1 then [NoSecurityTasks] else []), n >= 1)
  }

  /** One line per sibling whose status id is not terminal. */
  function NotTerminalLines(siblings: seq<Sibling>): (ds: seq<Diagnostic>)
    ensures forall s :: s in siblings && s.statusId !in TerminalStatusIds ==> NotTerminal(s.key) in ds
    ensures forall d :: d in ds ==> exists s :: s in siblings && s.statusId !in TerminalStatusIds && d == NotTerminal(s.key)
    ensures forall d :: d in ds ==> d.NotTerminal?
    decreases |siblings|
  {
    if |siblings| == 0 then []
    else
      var rest := NotTerminalLines(siblings[1..]);
      assert forall s :: s in siblings <==> s == siblings[0] || s in siblings[1..];
      (if siblings[0].statusId !in TerminalStatusIds then [NotTerminal(siblings[0].key)] else []) + rest
  }

  /** `$JiraSmartCommits`: every sibling's display ids, in order. */
  function SmartCommits(siblings: seq<Sibling>): (hs: seq<string>)
    ensures forall h :: h in hs <==> exists s :: s in siblings && h in s.smartCommits
    decreases |siblings|
  {
    if |siblings| == 0 then []
    else
      assert forall s :: s in siblings <==> s == siblings[0] || s in siblings[1..];
      siblings[0].smartCommits + SmartCommits(siblings[1..])
  }

  function SiblingSection(siblings: seq<Sibling>): (s: Section)
    ensures s.ok <==> |siblings| > 0
    ensures NoAssociatedIssues in s.lines <==> |siblings| == 0
  {
    if |siblings| == 0 then Section([NoAssociatedIssues], false) else Section(NotTerminalLines(siblings), true)
  }

  // ---------------------------------------------------------------- commit reconciliation

  /** The commits on the pull requests that Jira does not know of, each with
      its cached message. */
  function DiffSection(prCommits: seq<string>, smart: seq<string>, messages: map<string, string>): (s: Section)
    requires forall h :: h in prCommits ==> h in messages
    ensures s.ok <==> |ArrayDiff(prCommits, smart)| == 0
    ensures DiffHeader in s.lines <==> !s.ok
  {
    var diff := ArrayDiff(prCommits, smart);
    if |diff| > 0 then
      Section([DiffHeader] + seq(|diff|, k requires 0 <= k < |diff| => DiffEntry(diff[k], messages[diff[k]])), false)
    else
      Section([], true)
  }

  /** The reconciliation passes exactly when Jira knows every pull-request commit. */
  lemma DiffSectionOk(prCommits: seq<string>, smart: seq<string>, messages: map<string, string>)
    requires forall h :: h in prCommits ==> h in messages
    ensures DiffSection(prCommits, smart, messages).ok <==> forall h :: h in prCommits ==> h in smart
  {
    var diff := ArrayDiff(prCommits, smart);
    assert |diff| > 0 ==> diff[0] in diff;
  }

  // ---------------------------------------------------------------- one release

  /** The message lines, check by check. */
  function AllLines(ss: seq<Section>): seq<Diagnostic>
    decreases |ss|
  {
    if |ss| == 0 then [] else ss[0].lines + AllLines(ss[1..])
  }

  /** The pass flag after all checks. */
  predicate AllOk(ss: seq<Section>)
    decreases |ss|
  {
    |ss| == 0 || (ss[0].ok && AllOk(ss[1..]))
  }

  /** Check `base + i` writes section `i`, and each agrees with its lines. */
  predicate InOrder(ss: seq<Section>, base: nat) {
    forall i :: 0 <= i < |ss| ==> Agrees(ss[i]) && WrittenBy(ss[i], base + i)
  }

  /** When every check agrees with its lines, so does the whole message; and
      a line is in the message exactly when the check it comes from wrote it. */
  lemma {:induction false} AllLinesFacts(ss: seq<Section>, base: nat)
    requires InOrder(ss, base)
    ensures AllOk(ss) <==> Passes(AllLines(ss))
    ensures forall d :: d in AllLines(ss) <==> base <= Origin(d) < base + |ss| && d in ss[Origin(d) - base].lines
    decreases |ss|
  {
    if |ss| > 0 {
      assert InOrder(ss[1..], base + 1) by {
        forall i | 0 <= i < |ss[1..]|
          ensures Agrees(ss[1..][i]) && WrittenBy(ss[1..][i], base + 1 + i)
        {
          assert ss[1..][i] == ss[i + 1];
        }
      }
      AllLinesFacts(ss[1..], base + 1);
      forall d
        ensures d in AllLines(ss) <==> base <= Origin(d) < base + |ss| && d in ss[Origin(d) - base].lines
      {
        if base + 1 <= Origin(d) < base + |ss| {
          assert ss[1..][Origin(d) - base - 1] == ss[Origin(d) - base];
        }
      }
    }
  }

  /** No line comes before a line of an earlier check. */
  predicate InCheckOrder(ds: seq<Diagnostic>) {
    forall i, j :: 0 <= i < j < |ds| ==> Origin(ds[i]) <= Origin(ds[j])
  }

  /** Two runs of lines in check order, the first from no later check than
      any line of the second, are in check order together. */
  lemma OrderedConcat(a: seq<Diagnostic>, b: seq<Diagnostic>)
    requires InCheckOrder(a) && InCheckOrder(b)
    requires forall x, y :: x in a && y in b ==> Origin(x) <= Origin(y)
    ensures InCheckOrder(a + b)
  {
    var ab := a + b;
    forall i, j | 0 <= i < j < |ab|
      ensures Origin(ab[i]) <= Origin(ab[j])
    {
      if j < |a| {
        assert ab[i] == a[i] && ab[j] == a[j];
      } else if i < |a| {
        assert ab[i] == a[i] && ab[j] == b[j - |a|];
      } else {
        assert ab[i] == b[i - |a|] && ab[j] == b[j - |a|];
      }
    }
  }

  /** The message lines come check by check: every line of check `i` comes
      before every line of a later check. */
  lemma {:induction false} AllLinesOrdered(ss: seq<Section>, base: nat)
    requires InOrder(ss, base)
    ensures InCheckOrder(AllLines(ss))
    ensures forall d :: d in AllLines(ss) ==> base <= Origin(d) < base + |ss|
    decreases |ss|
  {
    AllLinesFacts(ss, base);
    if |ss| > 0 {
      assert InOrder(ss[1..], base + 1) by {
        forall i | 0 <= i < |ss[1..]|
          ensures Agrees(ss[1..][i]) && WrittenBy(ss[1..][i], base + 1 + i)
        {
          assert ss[1..][i] == ss[i + 1];
        }
      }
      AllLinesOrdered(ss[1..], base + 1);
      var first := ss[0].lines;
      assert WrittenBy(ss[0], base);
      assert InCheckOrder(first) by {
        assert forall i :: 0 <= i < |first| ==> first[i] in first;
      }
      OrderedConcat(first, AllLines(ss[1..]));
    }
  }

  /** The ticket's header and the lines that only inform: hotfix and blockers. */
  function NoticeSection(t: Ticket): Section {
    Section([Header(t.summary, t.key)] + HotfixLines(t.hotfix) + BlockerLines(t.links), true)
  }

  lemma NoticeSectionAgrees(t: Ticket)
    ensures Agrees(NoticeSection(t)) && WrittenBy(NoticeSection(t), 0)
  {
    var blockers := BlockerLines(t.links);
    assert forall d :: d in blockers ==> d.BlockedBy?;
  }

  lemma OpenSubtaskLinesPass(subtasks: seq<Subtask>)
    ensures Passes(OpenSubtaskLines(subtasks)) && WrittenBy(Section(OpenSubtaskLines(subtasks), true), 5)
  {
    var open := OpenSubtaskLines(subtasks);
    forall d | d in open
      ensures d.OpenSubtask?
    {
      var st :| st in subtasks && st.status != "Closed" && d == OpenSubtaskLine(st);
    }
  }

  lemma SecuritySectionAgrees(subtasks: seq<Subtask>, summary: string)
    ensures Agrees(SecuritySection(subtasks, summary)) && WrittenBy(SecuritySection(subtasks, summary), 5)
  {
    var open := OpenSubtaskLines(subtasks);
    var verdict: seq<Diagnostic> := if SignOffCount(subtasks, summary) < 1 then [NoSecurityTasks] else [];
    var lines := SecuritySection(subtasks, summary).lines;
    assert lines == open + verdict;
    OpenSubtaskLinesPass(subtasks);
    PassesAppend(open, verdict);
    forall d | d in lines
      ensures Origin(d) == 5
    {
      if d !in open {
        assert d in verdict;
      }
    }
    if |verdict| > 0 {
      assert verdict[0] in verdict;
    }
  }

  lemma SiblingSectionAgrees(siblings: seq<Sibling>)
    ensures Agrees(SiblingSection(siblings)) && WrittenBy(SiblingSection(siblings), 6)
  {
    var notTerminal := NotTerminalLines(siblings);
    assert forall d :: d in notTerminal ==> d.NotTerminal?;
    if |siblings| == 0 {
      assert NoAssociatedIssues in SiblingSection(siblings).lines;
    }
  }

  lemma DiffSectionAgrees(prCommits: seq<string>, smart: seq<string>, messages: map<string, string>)
    requires forall h :: h in prCommits ==> h in messages
    ensures Agrees(DiffSection(prCommits, smart, messages)) && WrittenBy(DiffSection(prCommits, smart, messages), 7)
  {
    var lines := DiffSection(prCommits, smart, messages).lines;
    if |lines| > 0 {
      assert lines[0] == DiffHeader;
      assert lines[0] in lines;
    }
    forall d | d in lines
      ensures Origin(d) == 7
    {
      var k :| 0 <= k < |lines| && lines[k] == d;
    }
  }

  /** No check writes the success mark. */
  lemma NoSuccessLine(ss: seq<Section>)
    requires |ss| == 8 && InOrder(ss, 0)
    ensures Success !in AllLines(ss)
  {
    AllLinesFacts(ss, 0);
  }

  /** The state the loop over pull requests starts from. */
  function StartState(prHash: Option<string>): PrState {
    PrState([], true, prHash, [], map[])
  }

  /** The verdict's lines come in the order the checks append them:
      notices, hashes, pull-request presence, pull requests, fix version,
      sub-tasks, sibling issues, commit reconciliation, then the success
      mark. */
  lemma JudgeOrdered(t: Ticket, siblings: seq<Sibling>, display: seq<string>, prs: PrState)
    requires Consistent(prs)
    ensures InCheckOrder(Judge(t, siblings, display, prs).lines)
  {
    var ss := Sections(t, siblings, display, prs);
    SectionsInOrder(t, siblings, display, prs);
    AllLinesOrdered(ss, 0);
    var lines := AllLines(ss);
    if AllOk(ss) {
      OrderedConcat(lines, [Success]);
    }
  }

  /** The Slack message of one release ticket, its pass flag, and `$prHash`
      as the next ticket finds it. */
  datatype Verdict = Verdict(lines: seq<Diagnostic>, clean: bool, prHash: Option<string>)

  lemma SingleLineSectionsAgree(t: Ticket, display: seq<string>)
    ensures Agrees(HashSection(display)) && WrittenBy(HashSection(display), 1)
    ensures Agrees(PullRequestSection(t.prUrls)) && WrittenBy(PullRequestSection(t.prUrls), 2)
    ensures Agrees(FixVersionSection(t.fixVersions)) && WrittenBy(FixVersionSection(t.fixVersions), 4)
  {
  }

  /** Check number `i` of one release ticket. */
  function Check(t: Ticket, siblings: seq<Sibling>, display: seq<string>, prs: PrState, i: nat): Section
    requires Consistent(prs) && i < 8
  {
    match i
    case 0 => NoticeSection(t)
    case 1 => HashSection(display)
    case 2 => PullRequestSection(t.prUrls)
    case 3 => Section(prs.lines, prs.ok)
    case 4 => FixVersionSection(t.fixVersions)
    case 5 => SecuritySection(t.subtasks, t.summary)
    case 6 => SiblingSection(siblings)
    case _ => DiffSection(prs.prCommits, SmartCommits(siblings), prs.messages)
  }

  // One lemma per check that the proofs look into: unfolding `Check` at a
  // single number is cheap, unfolding it at several at once is not.

  lemma CheckNotice(t: Ticket, siblings: seq<Sibling>, display: seq<string>, prs: PrState)
    requires Consistent(prs)
    ensures Check(t, siblings, display, prs, 0) == NoticeSection(t)
  {
  }

  lemma CheckHashes(t: Ticket, siblings: seq<Sibling>, display: seq<string>, prs: PrState)
    requires Consistent(prs)
    ensures Check(t, siblings, display, prs, 1) == HashSection(display)
  {
  }

  lemma CheckPullRequestPresence(t: Ticket, siblings: seq<Sibling>, display: seq<string>, prs: PrState)
    requires Consistent(prs)
    ensures Check(t, siblings, display, prs, 2) == PullRequestSection(t.prUrls)
  {
  }

  lemma CheckPullRequestLoop(t: Ticket, siblings: seq<Sibling>, display: seq<string>, prs: PrState)
    requires Consistent(prs)
    ensures Check(t, siblings, display, prs, 3) == Section(prs.lines, prs.ok)
  {
  }

  lemma CheckFixVersion(t: Ticket, siblings: seq<Sibling>, display: seq<string>, prs: PrState)
    requires Consistent(prs)
    ensures Check(t, siblings, display, prs, 4) == FixVersionSection(t.fixVersions)
  {
  }

  lemma CheckSecurity(t: Ticket, siblings: seq<Sibling>, display: seq<string>, prs: PrState)
    requires Consistent(prs)
    ensures Check(t, siblings, display, prs, 5) == SecuritySection(t.subtasks, t.summary)
  {
  }

  lemma CheckSiblings(t: Ticket, siblings: seq<Sibling>, display: seq<string>, prs: PrState)
    requires Consistent(prs)
    ensures Check(t, siblings, display, prs, 6) == SiblingSection(siblings)
  {
  }

  lemma CheckDiff(t: Ticket, siblings: seq<Sibling>, display: seq<string>, prs: PrState)
    requires Consistent(prs)
    ensures Check(t, siblings, display, prs, 7) == DiffSection(prs.prCommits, SmartCommits(siblings), prs.messages)
  {
  }

  /** The checks of one release ticket, in the order they write. */
  function Sections(t: Ticket, siblings: seq<Sibling>, display: seq<string>, prs: PrState): (ss: seq<Section>)
    requires Consistent(prs)
    ensures |ss| == 8
  {
    seq(8, i requires 0 <= i < 8 => Check(t, siblings, display, prs, i))
  }

  /** Check number `i` agrees with its lines and writes only lines of its
      own kind. */
  lemma CheckInOrder(t: Ticket, siblings: seq<Sibling>, display: seq<string>, prs: PrState, i: nat)
    requires Consistent(prs) && i < 8
    ensures Agrees(Check(t, siblings, display, prs, i)) && WrittenBy(Check(t, siblings, display, prs, i), i)
  {
    if i == 0 {
      CheckNotice(t, siblings, display, prs);
      NoticeSectionAgrees(t);
    } else if i == 5 {
      CheckSecurity(t, siblings, display, prs);
      SecuritySectionAgrees(t.subtasks, t.summary);
    } else if i == 6 {
      CheckSiblings(t, siblings, display, prs);
      SiblingSectionAgrees(siblings);
    } else if i == 7 {
      CheckDiff(t, siblings, display, prs);
      DiffSectionAgrees(prs.prCommits, SmartCommits(siblings), prs.messages);
    } else {
      SingleLineSectionsAgree(t, display);
    }
  }

  lemma SectionsInOrder(t: Ticket, siblings: seq<Sibling>, display: seq<string>, prs: PrState)
    requires Consistent(prs)
    ensures InOrder(Sections(t, siblings, display, prs), 0)
  {
    var ss := Sections(t, siblings, display, prs);
    forall i | 0 <= i < |ss|
      ensures Agrees(ss[i]) && WrittenBy(ss[i], i)
    {
      CheckInOrder(t, siblings, display, prs, i);
    }
  }

  /** The loop over the ticket's pull-request candidates. */
  function PrLoop(t: Ticket, host: CodeHost, prHash: Option<string>): (prs: PrState)
    ensures Consistent(prs)
  {
    CheckPullRequestsConsistent(t.prUrls, DisplayHashes(t.commitField), host, StartState(prHash));
    CheckPullRequests(t.prUrls, DisplayHashes(t.commitField), host, StartState(prHash))
  }

  /** The verdict on one release ticket, given its display hashes and what
      the loop over its pull requests collected. */
  function Judge(t: Ticket, siblings: seq<Sibling>, display: seq<string>, prs: PrState): (v: Verdict)
    requires Consistent(prs)
    ensures |v.lines| > 0 && v.lines[0] == Header(t.summary, t.key)
    ensures v.clean <==> forall d :: d in v.lines ==> !Fails(d)
    ensures Success in v.lines <==> v.clean
    ensures v.clean ==> v.lines[|v.lines| - 1] == Success
  {
    var ss := Sections(t, siblings, display, prs);
    SectionsInOrder(t, siblings, display, prs);
    AllLinesFacts(ss, 0);
    var lines := AllLines(ss);
    assert lines[0] == Header(t.summary, t.key) by {
      assert ss[0].lines[0] == Header(t.summary, t.key);
    }
    NoSuccessLine(ss);
    PassesAppend(lines, [Success]);
    Verdict(if AllOk(ss) then lines + [Success] else lines, AllOk(ss), prs.prHash)
  }

  /** The Slack message of one release ticket, its pass flag, and `$prHash`
      as the next ticket finds it. */
  function Validate(t: Ticket, siblings: seq<Sibling>, host: CodeHost, prHash: Option<string>): (v: Verdict)
    ensures |v.lines| > 0 && v.lines[0] == Header(t.summary, t.key)
    ensures v.clean <==> forall d :: d in v.lines ==> !Fails(d)
    ensures Success in v.lines <==> v.clean
    ensures v.clean ==> v.lines[|v.lines| - 1] == Success
    ensures prHash.Some? ==> v.prHash.Some?
  {
    Judge(t, siblings, DisplayHashes(t.commitField), PrLoop(t, host, prHash))
  }

  /** The message lines of a ticket come in the order the checks append them. */
  lemma ValidateOrdered(t: Ticket, siblings: seq<Sibling>, host: CodeHost, prHash: Option<string>)
    ensures InCheckOrder(Validate(t, siblings, host, prHash).lines)
  {
    JudgeOrdered(t, siblings, DisplayHashes(t.commitField), PrLoop(t, host, prHash));
  }

  /** A line other than the success mark is in the message exactly when the
      check it belongs to wrote it. */
  lemma WrittenByCheck(t: Ticket, siblings: seq<Sibling>, display: seq<string>, prs: PrState, d: Diagnostic, i: nat)
    requires Consistent(prs) && Origin(d) == i && i < 8
    ensures d in Judge(t, siblings, display, prs).lines <==> d in Check(t, siblings, display, prs, i).lines
  {
    SectionsInOrder(t, siblings, display, prs);
    AllLinesFacts(Sections(t, siblings, display, prs), 0);
  }

  lemma {:induction false} AllOkIff(ss: seq<Section>)
    ensures AllOk(ss) <==> forall i :: 0 <= i < |ss| ==> ss[i].ok
    decreases |ss|
  {
    if |ss| > 0 {
      AllOkIff(ss[1..]);
      assert forall i :: 1 <= i < |ss| ==> ss[i] == ss[1..][i - 1];
    }
  }

  /** The pass flag is the conjunction of the checks' flags. */
  lemma CleanIsAllOk(t: Ticket, siblings: seq<Sibling>, display: seq<string>, prs: PrState)
    requires Consistent(prs)
    ensures Judge(t, siblings, display, prs).clean <==> forall i :: 0 <= i < 8 ==> Check(t, siblings, display, prs, i).ok
  {
    var ss := Sections(t, siblings, display, prs);
    AllOkIff(ss);
    assert forall i :: 0 <= i < 8 ==> ss[i] == Check(t, siblings, display, prs, i);
  }

  /** The pass flag, check by check. */
  lemma CleanIsConjunction(t: Ticket, siblings: seq<Sibling>, display: seq<string>, prs: PrState)
    requires Consistent(prs)
    ensures Judge(t, siblings, display, prs).clean <==>
      && Check(t, siblings, display, prs, 0).ok && Check(t, siblings, display, prs, 1).ok
      && Check(t, siblings, display, prs, 2).ok && Check(t, siblings, display, prs, 3).ok
      && Check(t, siblings, display, prs, 4).ok && Check(t, siblings, display, prs, 5).ok
      && Check(t, siblings, display, prs, 6).ok && Check(t, siblings, display, prs, 7).ok
  {
    CleanIsAllOk(t, siblings, display, prs);
    if && Check(t, siblings, display, prs, 0).ok && Check(t, siblings, display, prs, 1).ok
       && Check(t, siblings, display, prs, 2).ok && Check(t, siblings, display, prs, 3).ok
       && Check(t, siblings, display, prs, 4).ok && Check(t, siblings, display, prs, 5).ok
       && Check(t, siblings, display, prs, 6).ok && Check(t, siblings, display, prs, 7).ok
    {
      forall i | 0 <= i < 8
        ensures Check(t, siblings, display, prs, i).ok
      {
        assert i == 0 || i == 1 || i == 2 || i == 3 || i == 4 || i == 5 || i == 6 || i == 7;
      }
    }
  }

  // ---------------------------------------------------------------- the run

  /** A release ticket together with the issues of its fix version. */
  datatype ReleaseInput = ReleaseInput(ticket: Ticket, siblings: seq<Sibling>)

  /** The loop over all release tickets, `$prHash` carried from one to the next. */
  function ValidateAll(rs: seq<ReleaseInput>, host: CodeHost, prHash: Option<string>): (vs: seq<Verdict>)
    ensures Headed(rs, vs)
    decreases |rs|
  {
    if |rs| == 0 then []
    else
      var v := Validate(rs[0].ticket, rs[0].siblings, host, prHash);
      var rest := ValidateAll(rs[1..], host, v.prHash);
      HeadedStep(rs, v, rest);
      [v] + rest
  }

  /** Verdict `k` opens with ticket `k`'s header. */
  predicate Headed(rs: seq<ReleaseInput>, vs: seq<Verdict>) {
    |vs| == |rs| &&
    forall k :: 0 <= k < |rs| ==> |vs[k].lines| > 0 && vs[k].lines[0] == Header(rs[k].ticket.summary, rs[k].ticket.key)
  }

  lemma HeadedStep(rs: seq<ReleaseInput>, v: Verdict, rest: seq<Verdict>)
    requires |rs| > 0 && |v.lines| > 0 && v.lines[0] == Header(rs[0].ticket.summary, rs[0].ticket.key)
    requires Headed(rs[1..], rest)
    ensures Headed(rs, [v] + rest)
  {
    forall k | 1 <= k < |rs|
      ensures ([v] + rest)[k] == rest[k - 1] && rs[k] == rs[1..][k - 1]
    {
    }
  }
}
